=== FILE: README.md ===
# Double-buffered console renderer and dungeon generator, in Dafny

This project models the core of a small C# roguelike:

- **`ConsoleScreen`**: a double-buffered console. Callers write characters into a
  back buffer. `Draw` compares the visible part of the back buffer with what is
  displayed. It prints only the cells that changed, then swaps the buffers.
  A change of the terminal's window size triggers a full `Redraw`.
- **`ConsoleChar`**: the immutable character-plus-colours value that the diff compares.
- **`Map`**: the record of tiles, rooms and enemies.
- **`MapGenerator`**: places rooms by rejection sampling, carves walls, floor and a
  door, and places enemies on floor tiles.
- **`MainClass.ProcessInput`**: moves the player within the 80 by 24 map. The
  game loop stops on Escape or Q.

## How the model is built

- The static class state is the datatype `ConsoleScreen.Screen`.
- Every operation is a pure function. It returns the new state and the
  terminal trace. A trace is a sequence of `Trace.Event` values:
  - `ClearScreen(cursor, background, foreground)` is `ClearConsole`;
  - `Print(x, y, cell)` is `PrintConsoleChar`.
- A buffer is `seq<seq<Option<Cell>>>`, indexed `[x][y]` like the C# `ConsoleChar[x, y]`.
  `None` stands for a null slot.
- The live window size is passed in as `liveWidth`/`liveHeight`. This covers
  `Console.WindowWidth`/`Height`.
- `canResize` says whether `Console.SetWindowSize` is implemented. When it is
  not, the `NotImplementedException` fallback is taken.
- Exceptions are the `Threw` case of `ConsoleScreen.Outcome`. That case keeps
  the state left behind, because the string `Write` keeps the characters it
  wrote before the throw.
- Both `Draw` and `Redraw` walk the visible region in row-major order. That
  walk is `Trace.Scan`, proved once:
  - it prints exactly at the marked positions;
  - it prints in strictly increasing row-major order;
  - its length is the number of marked positions.
- `ConsoleScreenProps` applies `Trace.Scan` to the frame diff and to the repaint.
- `Terminal.Console` gives the events their effect on the console: what is
  printed where, the cursor flag, and the colour a clear leaves.
  `DisplayProps` proves that after every frame the console shows each
  non-empty visible cell of the screen buffer.
- The random draws of the generator are parameters. Each one must lie in the
  range that `System.Random.Next` can return; `Next(0)` returns 0.
- The generator's loops are Dafny methods with loop invariants, like the C# loops.

The model follows the code. Three behaviours of the code are easy to miss:

- **`Draw` after a resize.** `Draw` does not return after the `Redraw` that a
  resize triggers. It still runs the diff and the swap, against the new window size
  (`ConsoleScreenProps.DrawAfterResize`).
- **Swapped colours of the clearing space.** An empty back-buffer cell over a
  displayed one is cleared with `new ConsoleChar(' ', backgroundColor, foregroundColor)`.
  The constructor's parameter order is (character, foreground, background). So
  the space gets the default background as its foreground, and the default
  foreground as its background. `ConsoleScreen.ClearingSpace` states this.
  `ConsoleScreenProps.FirstFrameScenario` shows it on a White-on-Black screen:
  the cleared cell is printed Black on White.
- **Buffer sizes.** Zero-size buffers are accepted. Only a negative size fails,
  with the `OverflowException` that array allocation throws. By then the new
  size has already been recorded.

## Model

| member | source | states |
|---|---|---|
| `ConsoleChar.New` | Roguelike/Console/ConsoleChar.cs:20-25 | the constructor stores the character and both colours as given; the colours default to White on Black |
| `ConsoleChar.EqualsIsStructural` | Roguelike/Console/ConsoleChar.cs:105-115 | `Equals` is false for null; otherwise it holds exactly when all three fields agree, i.e. for value equality |
| `ConsoleChar.OpEqualsIsEquality` | Roguelike/Console/ConsoleChar.cs:62-70 | `==` is true for null and null, false for null against non-null, otherwise `Equals`; hence it is value equality of possibly-null cells and is symmetric |
| `ConsoleChar.OpNotEqualsNegatesOpEquals` | Roguelike/Console/ConsoleChar.cs:80-88 | `!=` is the negation of `==` in all four null/non-null combinations |
| `ConsoleChar.HashConsistentWithEquals` | Roguelike/Console/ConsoleChar.cs:123-128 | equal characters get equal XOR-combined hash codes, whatever the field hashes are |
| `ConsoleChar.HashIgnoresColourOrder` | Roguelike/Console/ConsoleChar.cs:123-128 | the XOR combination cannot tell a character from the same character with its colours swapped |
| `Trace.ScanRow` | Roguelike/Console/ConsoleScreen.cs:362-387 | one row of the inner loop prints only where asked, with the asked cell, in increasing column order, and everywhere asked |
| `Trace.ScanRows` | Roguelike/Console/ConsoleScreen.cs:358-388 | the nested loops print only inside the region, in strictly increasing row-major order, and at every position asked for |
| `Trace.Scan` | Roguelike/Console/ConsoleScreen.cs:413-426 | the region walk used by the diff and the repaint: sound, complete and in row-major order |
| `Trace.RowMajorDistinct` | Roguelike/Console/ConsoleScreen.cs:358-363 | a trace in strictly increasing row-major order never prints a position twice |
| `Trace.ScanCount` | Roguelike/Console/ConsoleScreen.cs:358-388 | the walk makes exactly one print per marked position of the region |
| `ConsoleScreen.Initialize` | Roguelike/Console/ConsoleScreen.cs:188-222 | a negative size throws after recording the requested size; otherwise: the buffer size is the request, both buffers are empty, the window is the larger of request and live size (or the live size when resizing is not implemented), colours and cursor flag are stored, and one clear is emitted |
| `ConsoleScreen.CheckCoordinates` | Roguelike/Console/ConsoleScreen.cs:319-337 | the bounds checks pass exactly for coordinates inside the buffer; each exception is raised exactly when its check is the first to fail, in the order x<0, y<0, x>=width, y>=height |
| `ConsoleScreen.Write` | Roguelike/Console/ConsoleScreen.cs:312-344 | a null cell throws first, then the bounds checks in order, with no state change; on success the one back-buffer slot holds the cell and nothing else (other slots, display, geometry, colours) changes |
| `ConsoleScreen.WriteChar` | Roguelike/Console/ConsoleScreen.cs:297-300 | a character with explicit colours is stored as that cell exactly when the position is in the buffer; nothing else changes and nothing is printed until `Draw`; outside the buffer the bounds exception of the cell `Write` is raised and the state is unchanged |
| `ConsoleScreen.WriteCharDefault` | Roguelike/Console/ConsoleScreen.cs:280-283 | the colourless character write stores the character with the current default colours exactly when the position is in the buffer; nothing else changes and nothing is printed; outside the buffer it raises the bounds exception with the state unchanged |
| `ConsoleScreen.WriteChars` | Roguelike/Console/ConsoleScreen.cs:258-267 | `text[i]` lands at `(x+i, y)` with the given colours; on overflow the characters before the first out-of-range column stay written, the rest of the buffer is unchanged, and the exception is the one for that column |
| `ConsoleScreen.WriteText` | Roguelike/Console/ConsoleScreen.cs:251-268 | a null text throws before anything is written; otherwise the characters that fit are stored one column apart with the given colours and nothing else changes; the call succeeds, printing nothing, exactly when the whole text fits, and otherwise raises the bounds exception of the first column that does not fit |
| `ConsoleScreen.WriteTextDefault` | Roguelike/Console/ConsoleScreen.cs:234-237 | a null text throws; otherwise the characters that fit are stored with the screen's current default colours and nothing else changes; the call succeeds, printing nothing, exactly when the whole text fits, and otherwise raises the bounds exception of the first column that does not fit |
| `ConsoleScreen.ClearingSpace` | Roguelike/Console/ConsoleScreen.cs:378 | the clearing space is `' '` whose foreground is the default background and whose background is the default foreground |
| `ConsoleScreen.CellUpdate` | Roguelike/Console/ConsoleScreen.cs:366-386 | a position is printed exactly when it is not empty on both sides and its effective back value differs from the displayed value; what is printed is the effective value |
| `ConsoleScreen.Redraw` | Roguelike/Console/ConsoleScreen.cs:401-428 | records the live size, emits a clear, then prints in row-major order exactly the non-empty displayed cells of the new visible region |
| `ConsoleScreen.HandleWindowResize` | Roguelike/Console/ConsoleScreen.cs:459-467 | emits nothing when the live size equals the recorded one; otherwise emits exactly the trace of `Redraw`; either way it records the live size |
| `ConsoleScreen.Draw` | Roguelike/Console/ConsoleScreen.cs:350-395 | afterwards the display is the pre-draw back buffer (all of it, empties included), the back buffer is all empty with the buffer size, the live size is recorded, and nothing else changes |
| `ConsoleScreen.Clear` | Roguelike/Console/ConsoleScreen.cs:433-442 | both buffers become empty with the same size; geometry, colours and cursor flag are unchanged; one clear is emitted |
| `ConsoleScreenProps.DiffScanIsDiff` | Roguelike/Console/ConsoleScreen.cs:357-388 | the diff walk prints exactly the differing visible cells, with their effective value, in row-major order, one print per differing cell |
| `ConsoleScreenProps.DrawWithoutResize` | Roguelike/Console/ConsoleScreen.cs:350-395 | with the window size unchanged, the whole trace of `Draw` is exactly that diff |
| `ConsoleScreenProps.EmptyOverEmptyNotPrinted` | Roguelike/Console/ConsoleScreen.cs:371-376 | a position empty in both buffers is never printed |
| `ConsoleScreenProps.DrawAfterResize` | Roguelike/Console/ConsoleScreen.cs:355 | after a resize, the trace is a clear, then the repaint of every non-empty displayed cell of the new region, then the diff against the new window size |
| `ConsoleScreenProps.FirstFrameDrawsWrittenCells` | Roguelike/Console/ConsoleScreen.cs:366-386 | against an empty display, the differing positions are exactly the visible written ones |
| `ConsoleScreenProps.SecondIdleDraw` | Roguelike/Console/ConsoleScreen.cs:371-393 | the second of two draws with no write between them prints the clearing space exactly at the visible cells the first draw left non-empty (unless already that space) |
| `ConsoleScreenProps.ThirdIdleDraw` | Roguelike/Console/ConsoleScreen.cs:371-393 | the third consecutive idle draw prints nothing |
| `ConsoleScreenProps.WriteThenDraw` | Roguelike/Console/ConsoleScreen.cs:342 | a written cell is displayed after the next draw, and is printed by it when visible, unchanged in window size and different from what was shown |
| `ConsoleScreenProps.ClearThenDraw` | Roguelike/Console/ConsoleScreen.cs:433-442 | a draw right after `Clear` prints nothing |
| `ConsoleScreenProps.RedrawCount` | Roguelike/Console/ConsoleScreen.cs:413-426 | a repaint makes one print per non-empty visible displayed cell, after the clear |
| `ConsoleScreenProps.RepaintIsShown` | Roguelike/Console/ConsoleScreen.cs:413-426 | the repaint prints every non-empty visible displayed cell exactly once, with its displayed value, in row-major order, and nothing else |
| `ConsoleScreenProps.SingleDifference` | Roguelike/Console/ConsoleScreen.cs:383-386 | a frame with one differing position prints exactly that cell |
| `ConsoleScreenProps.FirstFrameScenario` | Roguelike/Console/ConsoleScreen.cs:378 | on a 5 by 3 screen, White on Black, one written 'X' is the only print of the first frame; the next idle frame prints a space, Black on White, at the same position |
| `Terminal.ReplayPrints` | Roguelike/Console/ConsoleScreen.cs:475-481 | printing in row-major order leaves each printed character at its position and every other position as it was |
| `Terminal.ReplayConcat` | Roguelike/Console/ConsoleScreen.cs:350-395 | the console after a frame is the console after the repaint, then the diff |
| `Terminal.ClearForgetsPrints` | Roguelike/Console/ConsoleScreen.cs:448-454 | after a clear no printed character remains, and the cursor flag and colours are the ones the clear set |
| `DisplayProps.ClearConsoleBlanks` | Roguelike/Console/ConsoleScreen.cs:448-454 | `ClearConsole` wipes every printed character and leaves the screen's cursor flag and default colours on the console |
| `DisplayProps.RedrawDisplays` | Roguelike/Console/ConsoleScreen.cs:401-428 | whatever the console showed, after a repaint it shows every non-empty visible displayed cell |
| `DisplayProps.DiffDisplays` | Roguelike/Console/ConsoleScreen.cs:357-388 | on a console showing the screen buffer, the diff leaves it showing the back buffer |
| `DisplayProps.DrawDisplays` | Roguelike/Console/ConsoleScreen.cs:350-395 | after `Draw` the console shows every non-empty visible cell of the new screen buffer, if it showed the old one or the window was resized |
| `DisplayProps.StaleCellShowsSwappedSpace` | Roguelike/Console/ConsoleScreen.cs:371-386 | a displayed character that nothing wrote this frame ends up as a space with the two default colours swapped |
| `Map.New` | Roguelike/Map.cs:17-24 | a negative size fails; otherwise width and height are stored, the tiles form a width by height grid of `Floor` (the enum's first member), and rooms and enemies are empty |
| `Map.IntersectsIffCommonCell` | Roguelike/MapGenerator.cs:64-78 | for rectangles of positive size, `IntersectsWith` holds exactly when some cell lies in both |
| `Map.IntersectsSymmetric` | Roguelike/MapGenerator.cs:67 | overlap does not depend on which room is asked |
| `MapGenerator.DoorOnRing` | Roguelike/MapGenerator.cs:112-137 | for every drawable room size and side, the door lies on the room's border ring, on a wall tile, and not on a corner |
| `MapGenerator.CarveRoom` | Roguelike/MapGenerator.cs:86-140 | top and bottom rows (corners included) become horizontal wall, the other left and right column cells vertical wall, the inside floor; exactly one room cell is the door; nothing outside the room changes |
| `MapGenerator.AddRoomKeepsValid` | Roguelike/MapGenerator.cs:80-81 | carving an accepted candidate and adding it keeps every room in bounds, intact and pairwise non-overlapping |
| `MapGenerator.FirstFitFrom` | Roguelike/MapGenerator.cs:48-79 | the attempt the loop accepts: from `from` on, the first candidate that ends before the far edges and overlaps no room, with every earlier one rejected; the number of candidates when none is accepted |
| `MapGenerator.CarvedIsCarvedTiles` | Roguelike/MapGenerator.cs:86-140 | a room carved as the loops and the door leave it, with nothing outside it changed, has exactly the tiles of `CarvedTiles`, the reference carving |
| `MapGenerator.CarvedKept` | Roguelike/MapGenerator.cs:80-81 | carving a new room that overlaps no earlier room leaves every earlier room's walls, floor and door as they were |
| `MapGenerator.WithNextRoomFirstFit` | Roguelike/MapGenerator.cs:80-82 | when candidate `i` is the first accepted one, the reference step `WithNextRoom` carves exactly that candidate and appends it |
| `MapGenerator.WithNextRoomNoFit` | Roguelike/MapGenerator.cs:48-83 | when every attempt is rejected, `WithNextRoom` leaves the map unchanged |
| `MapGenerator.AcceptRoom` | Roguelike/MapGenerator.cs:80-82 | the accepting branch carves the first fit with its door, appends it, keeps all room invariants, changes no tile outside it, and yields exactly `WithNextRoom` |
| `MapGenerator.CreateRoom` | Roguelike/MapGenerator.cs:46-84 | of at most 10 candidates, the first that ends before the far edges and overlaps no room is carved (walls, floor, the door at the drawn side) and added, and no tile outside it changes; when none qualifies the map is unchanged; all room invariants are kept; the result is exactly the reference step `WithNextRoom` |
| `MapGenerator.PlacedFromAddedRoom` | Roguelike/MapGenerator.cs:40-43 | after a call adds its first fit, every room added so far is one of its own call's candidates and is still carved with that call's door side |
| `MapGenerator.CreateNextRoom` | Roguelike/MapGenerator.cs:40-43 | one iteration of the room loop keeps the loop's facts and extends the fold `RoomsPlaced` by one `WithNextRoom` step |
| `MapGenerator.GenerateRooms` | Roguelike/MapGenerator.cs:37-44 | the result is exactly `RoomsPlaced`, the fold of `WithNextRoom` over the calls with their candidates and door sides; so at most that many rooms are added, existing rooms are kept, all room invariants hold, every added room is one of its call's candidates and keeps the walls, floor and single door carved for it, and no tile outside the added rooms changes |
| `MapGenerator.DrawnPositionOnMap` | Roguelike/MapGenerator.cs:149-150 | every position the two draws can produce is a cell of the map |
| `MapGenerator.FloorDrawsKeepsFloor` | Roguelike/MapGenerator.cs:145-157 | the draws `FloorDraws` keeps are on floor tiles and come from the draws, at most one per draw, and every draw on floor is kept |
| `MapGenerator.FloorDrawsReadsTiles` | Roguelike/MapGenerator.cs:153 | which draws are kept depends only on the tiles, so adding enemies does not change it |
| `MapGenerator.GenerateEnemies` | Roguelike/MapGenerator.cs:142-158 | the enemy list becomes the old list followed by the drawn positions that fall on floor, in draw order with repeats kept; so every new enemy stands on floor and nothing else changes |
| `MapGenerator.GenerateMap` | Roguelike/MapGenerator.cs:22-35 | the generated map is exactly the fold `RoomsPlaced` over the drawn calls on a fresh map, with the draws that land on floor as enemies in draw order; hence at most the drawn number of rooms, all in bounds, intact and disjoint, each one of its call's candidates carved with that call's door side; every tile outside all rooms is floor; no enemy stands on a room's wall or door |
| `Program.ProcessInput` | Roguelike/Program.cs:55-76 | an arrow moves one cell in its direction exactly when the target stays on the 80 by 24 map, otherwise nothing changes; other keys change nothing |
| `Program.MoveIsOneStep` | Roguelike/Program.cs:57-75 | a call changes at most one coordinate, by at most one |
| `Program.MoveStaysOnMap` | Roguelike/Program.cs:55-76 | a position on the map stays on the map |
| `Program.OppositeMovesCancel` | Roguelike/Program.cs:59-74 | an opposite arrow undoes a successful move |
| `Program.RunGame` | Roguelike/Program.cs:23-45 | the loop keeps the player on the map and is still running exactly when no Escape or Q has been read |
| `Program.QuitIgnoresLaterKeys` | Roguelike/Program.cs:36-42 | keys after the first Escape or Q never reach `ProcessInput` and do not affect the result |
| `Program.QuitKeepsPosition` | Roguelike/Program.cs:36-39 | Escape or Q stops the loop without moving the player |

## Left out

- Locking. The model is sequential. It leaves out the `lock` blocks, the re-entrant lock in the string `Write`, and the bounds checks that are read outside the lock.
- The static constructor and the singleton lifecycle. The state is an explicit `Screen` value.
- The two shorter `Initialize` overloads. They call the modelled overload with the console's current size and colours, which a caller passes in.
- The property getters and the `DisplayCursor` setter. They are plain reads and writes of `Screen` fields.
- Real console I/O. `ClearConsole` becomes a `ClearScreen` event and `PrintConsoleChar` becomes a `Print` event. `Terminal.Apply` gives each event its effect as a whole. Where the cursor ends up and the console's scrolling and wrapping are not modelled.
- A change of the window size between the two reads in one `Draw`. `HandleWindowResize` reads `Console.WindowWidth`/`WindowHeight` at ConsoleScreen.cs:462-463, and the `Redraw` it calls reads them again at :406-407. The model passes one live size per call, so both reads see the same size.
- Exceptions from `Console.SetWindowSize` other than `NotImplementedException`, such as a size larger than the screen allows. The source does not catch them.
- The operations that follow an `Initialize` that threw. At that point the recorded buffer size no longer matches the arrays. Every later operation requires `ConsoleScreen.Valid`, the invariant that every non-throwing operation keeps.
- `ConsoleScreen.WriteChars`: treats text as a sequence of Unicode scalar values, one cell each. The C# `foreach` writes one cell per UTF-16 code unit, so a character outside the Basic Multilingual Plane fills two cells there. A Dafny `char` cannot hold a lone surrogate, so this is not modelled.
- `Equals(object)` with an argument that is not a `ConsoleChar`. Only null and `ConsoleChar` arguments are modelled.
- Concrete `GetHashCode` values. They are platform-defined, so the field hashes are parameters.
- `System.Random`. Each draw is a parameter whose range is a precondition.
- `MapGenerator.GenerateMap`: requires a map width and height of at least 1. With a smaller size, `Random.Next(width - 1)` throws, and that path is not modelled.
- `System.Drawing.Rectangle` beyond `X`, `Y`, `Width`, `Height`, `Right`, `Bottom` and `IntersectsWith`.
- The `Cop` and `Enemy` classes. They are not part of this model; both become an `(x, y)` position.
- `DisplayGame` and `Main`. They are console I/O only.
- `Program.RunGame`: models the keys read so far, as a finite sequence. The blocking `Console.ReadKey` is not modelled.
- 32-bit overflow of coordinates. Integers are unbounded. No modelled path gets close to the C# `int` range: a write succeeds only below the buffer width, and the player stays within 80 by 24.

=== FILE: console_char.dfy ===
/**
  The value drawn in one terminal position: a character with a font colour
  and a background colour, compared by value.
 */
module ConsoleChar {
  import opened Wrappers

  /** The sixteen colours of the .NET console, in declaration order. */
  datatype Color =
    | Black | DarkBlue | DarkGreen | DarkCyan | DarkRed | DarkMagenta | DarkYellow | Gray
    | DarkGray | Blue | Green | Cyan | Red | Magenta | Yellow | White

  /** An immutable console character. Being a datatype, no member can change it after construction. */
  datatype Cell = Cell(printChar: char, foregroundColor: Color, backgroundColor: Color)
  {
    /** `Equals(consoleChar)`: false for null, otherwise field-by-field comparison. */
    predicate Equals(other: Option<Cell>)
    {
      match other
      case None => false
      case Some(c) =>
        && printChar == c.printChar
        && foregroundColor == c.foregroundColor
        && backgroundColor == c.backgroundColor
    }
  }

  /**
    The constructor: parameters in the order character, foreground,
    background, with White on Black when the colours are left out.
   */
  function New(printChar: char, foregroundColor: Color := White, backgroundColor: Color := Black): (c: Cell)
    ensures c.printChar == printChar
    ensures c.foregroundColor == foregroundColor && c.backgroundColor == backgroundColor
  {
    Cell(printChar, foregroundColor, backgroundColor)
  }

  /** The null-aware `==` operator: null equals only null, otherwise `Equals` decides. */
  predicate OpEquals(lhs: Option<Cell>, rhs: Option<Cell>)
  {
    match lhs
    case None => rhs.None?
    case Some(c) => c.Equals(rhs)
  }

  /** The null-aware `!=` operator, written out separately as in the class. */
  predicate OpNotEquals(lhs: Option<Cell>, rhs: Option<Cell>)
  {
    match lhs
    case None => rhs.Some?
    case Some(c) => !c.Equals(rhs)
  }

  /**
    `GetHashCode`: the XOR of the three field hashes. The field hashes are
    platform-defined, so they are parameters here.
   */
  function HashCode(c: Cell, charHash: char -> bv32, colorHash: Color -> bv32): bv32
  {
    charHash(c.printChar) ^ colorHash(c.foregroundColor) ^ colorHash(c.backgroundColor)
  }

  /** `Equals` holds exactly for a non-null argument with the same three fields. */
  lemma EqualsIsStructural(a: Cell, other: Option<Cell>)
    ensures a.Equals(other) <==> other == Some(a)
  {
  }

  /** `==` coincides with value equality of possibly-null cells; hence it is reflexive and symmetric. */
  lemma OpEqualsIsEquality(lhs: Option<Cell>, rhs: Option<Cell>)
    ensures OpEquals(lhs, rhs) <==> lhs == rhs
    ensures OpEquals(lhs, rhs) <==> OpEquals(rhs, lhs)
  {
  }

  /** `!=` is the negation of `==` in all four null/non-null combinations. */
  lemma OpNotEqualsNegatesOpEquals(lhs: Option<Cell>, rhs: Option<Cell>)
    ensures OpNotEquals(lhs, rhs) <==> !OpEquals(lhs, rhs)
    ensures OpNotEquals(lhs, rhs) <==> lhs != rhs
  {
  }

  /** Equal characters have equal hash codes, whatever the field hashes are. */
  lemma HashConsistentWithEquals(a: Cell, b: Cell, charHash: char -> bv32, colorHash: Color -> bv32)
    requires a.Equals(Some(b))
    ensures HashCode(a, charHash, colorHash) == HashCode(b, charHash, colorHash)
  {
  }

  /**
    XOR does not see the order of its operands, so a character and the same
    character with its two colours swapped always share a hash code.
   */
  lemma HashIgnoresColourOrder(ch: char, fg: Color, bg: Color, charHash: char -> bv32, colorHash: Color -> bv32)
    ensures HashCode(Cell(ch, fg, bg), charHash, colorHash) == HashCode(Cell(ch, bg, fg), charHash, colorHash)
  {
  }
}

=== FILE: console_screen.dfy ===
/**
  The double-buffered console: the state the static class keeps, and each of
  its operations as a pure transition that also returns what it sent to the
  terminal. The live window size and whether the platform can resize the
  window are inputs, since they come from the terminal.
 */
module ConsoleScreen {
  import opened Wrappers
  import opened ConsoleChar
  import opened Trace
  import Grid

  /** A console buffer: `Some(c)` where something was written, `None` (null) elsewhere. */
  type Buffer = seq<seq<Option<Cell>>>

  /** The static fields of the console screen. */
  datatype Screen = Screen(
    windowWidth: nat,
    windowHeight: nat,
    bufferWidth: int,
    bufferHeight: int,
    screenBuffer: Buffer,
    backBuffer: Buffer,
    foregroundColor: Color,
    backgroundColor: Color,
    displayCursor: bool)

  /** The argument an exception names. */
  datatype Param = ConsoleCharParam | TextParam | XParam | YParam

  /** The exceptions the operations throw. */
  datatype Error =
    | ArgumentNull(param: Param)            // ArgumentNullException
    | NegativeCoordinate(param: Param)      // ArgumentException "cannot be negative"
    | BeyondBuffer(param: Param)            // ArgumentException "cannot exceed the console buffer"
    | NegativeDimension                     // OverflowException from allocating a negative-size array

  /**
    The result of an operation that may throw: the state afterwards (a throw
    may leave earlier effects in place) and, on success, the terminal trace.
   */
  datatype Outcome = Ok(screen: Screen, trace: seq<Event>) | Threw(screen: Screen, error: Error)

  /** The result of an operation that cannot throw. */
  datatype Frame = Frame(screen: Screen, trace: seq<Event>)

  /** Both buffers have the recorded buffer size: what every non-throwing operation keeps. */
  ghost predicate Valid(s: Screen)
  {
    && s.bufferWidth >= 0
    && s.bufferHeight >= 0
    && Grid.IsGrid(s.screenBuffer, s.bufferWidth, s.bufferHeight)
    && Grid.IsGrid(s.backBuffer, s.bufferWidth, s.bufferHeight)
  }

  /** A freshly allocated `ConsoleChar[width, height]`: every slot null. */
  function Empty(width: nat, height: nat): (b: Buffer)
    ensures Grid.IsGrid(b, width, height)
    ensures forall x, y :: 0 <= x < width && 0 <= y < height ==> b[x][y].None?
  {
    Grid.Filled(width, height, None)
  }

  /** The slot at `(x, y)`, or null outside the buffer. */
  function At(b: Buffer, x: int, y: int): Option<Cell>
  {
    if 0 <= x < |b| && 0 <= y < |b[x]| then b[x][y] else None
  }

  function Min(a: int, b: int): int
  {
    if a <= b then a else b
  }

  function Max(a: int, b: int): int
  {
    if a >= b then a else b
  }

  /** Columns of the buffer that fit in the window: `Math.Min(bufferWidth, windowWidth)`. */
  function VisibleWidth(s: Screen): int
  {
    Min(s.bufferWidth, s.windowWidth)
  }

  /** Rows of the buffer that fit in the window: `Math.Min(bufferHeight, windowHeight)`. */
  function VisibleHeight(s: Screen): int
  {
    Min(s.bufferHeight, s.windowHeight)
  }

  /** `(x, y)` is inside the region `Draw` and `Redraw` visit. */
  predicate Visible(s: Screen, x: int, y: int)
  {
    0 <= x < VisibleWidth(s) && 0 <= y < VisibleHeight(s)
  }

  /** `ClearConsole`: cursor visibility and default colours are set, then the terminal is cleared. */
  function ClearConsole(s: Screen): Event
  {
    ClearScreen(s.displayCursor, s.backgroundColor, s.foregroundColor)
  }

  /**
    The space `Draw` writes over a displayed character that nothing wrote
    this frame. The constructor takes the font colour first, but is handed
    the default background first, so the two default colours come out swapped.
   */
  function ClearingSpace(s: Screen): (c: Cell)
    ensures c.printChar == ' '
    ensures c.foregroundColor == s.backgroundColor && c.backgroundColor == s.foregroundColor
  {
    ConsoleChar.New(' ', s.backgroundColor, s.foregroundColor)
  }

  /** The cell `Draw` compares with the display: the back-buffer cell, or the clearing space for an empty one. */
  function Effective(back: Option<Cell>, space: Cell): Cell
  {
    match back
    case Some(c) => c
    case None => space
  }

  /**
    The body of the inner loop of `Draw` for one position: what gets printed
    there, if anything, given the back-buffer slot, the displayed slot and the
    clearing space.
   */
  function CellUpdate(back: Option<Cell>, shown: Option<Cell>, space: Cell): (r: Option<Cell>)
    ensures r.Some? <==> (back.Some? || shown.Some?) && Some(Effective(back, space)) != shown
    ensures r.Some? ==> r.value == Effective(back, space)
  {
    if back.None? && shown.None? then None
    else
      var c := if back.None? then space else back.value;
      OpNotEqualsNegatesOpEquals(Some(c), shown);
      if OpNotEquals(Some(c), shown) then Some(c) else None
  }

  /** What the diff prints at each position of `s`. */
  function DiffAt(s: Screen): (int, int) -> Option<Cell>
  {
    (x, y) => CellUpdate(At(s.backBuffer, x, y), At(s.screenBuffer, x, y), ClearingSpace(s))
  }

  /** What a full repaint prints at each position: every non-empty displayed cell. */
  function ShownAt(s: Screen): (int, int) -> Option<Cell>
  {
    (x, y) => At(s.screenBuffer, x, y)
  }

  /**
    `Initialize(width, height, backgroundColor, foregroundColor, displayCursor)`.
    The buffer size is recorded before the arrays are allocated, so a negative
    size throws with the new size recorded and the old buffers kept. The
    window becomes the larger of the request and the live size, or the live
    size when the platform cannot resize the window.
   */
  function Initialize(
    s: Screen, width: int, height: int, backgroundColor: Color, foregroundColor: Color, displayCursor: bool := false,
    liveWidth: nat, liveHeight: nat, canResize: bool): (o: Outcome)
    ensures o.Ok? <==> width >= 0 && height >= 0
    ensures o.Threw? ==> o.error == NegativeDimension && o.screen == s.(bufferWidth := width, bufferHeight := height)
    ensures o.Ok? ==>
      && Valid(o.screen)
      && o.screen.bufferWidth == width && o.screen.bufferHeight == height
      && (forall x, y :: 0 <= x < width && 0 <= y < height ==>
            o.screen.screenBuffer[x][y].None? && o.screen.backBuffer[x][y].None?)
      && (canResize ==>
            && o.screen.windowWidth >= width && o.screen.windowWidth >= liveWidth
            && (o.screen.windowWidth == width || o.screen.windowWidth == liveWidth)
            && o.screen.windowHeight >= height && o.screen.windowHeight >= liveHeight
            && (o.screen.windowHeight == height || o.screen.windowHeight == liveHeight))
      && (!canResize ==> o.screen.windowWidth == liveWidth && o.screen.windowHeight == liveHeight)
      && o.screen.foregroundColor == foregroundColor && o.screen.backgroundColor == backgroundColor
      && o.screen.displayCursor == displayCursor
      && o.trace == [ClearScreen(displayCursor, backgroundColor, foregroundColor)]
  {
    if width < 0 || height < 0 then
      Threw(s.(bufferWidth := width, bufferHeight := height), NegativeDimension)
    else
      var requestedWidth := Max(width, liveWidth);
      var requestedHeight := Max(height, liveHeight);
      var s' := Screen(
        if canResize then requestedWidth else liveWidth,
        if canResize then requestedHeight else liveHeight,
        width, height, Empty(width, height), Empty(width, height),
        foregroundColor, backgroundColor, displayCursor);
      Ok(s', [ClearConsole(s')])
  }

  /** The exception the bounds checks of the cell `Write` raise for `(x, y)`, in the order they are made. */
  function CheckCoordinates(s: Screen, x: int, y: int): (e: Option<Error>)
    ensures e.None? <==> 0 <= x < s.bufferWidth && 0 <= y < s.bufferHeight
    ensures e == Some(NegativeCoordinate(XParam)) <==> x < 0
    ensures e == Some(NegativeCoordinate(YParam)) <==> x >= 0 && y < 0
    ensures e == Some(BeyondBuffer(XParam)) <==> x >= s.bufferWidth && x >= 0 && y >= 0
    ensures e == Some(BeyondBuffer(YParam)) <==> y >= s.bufferHeight && 0 <= x < s.bufferWidth && y >= 0
  {
    if x < 0 then Some(NegativeCoordinate(XParam))
    else if y < 0 then Some(NegativeCoordinate(YParam))
    else if x >= s.bufferWidth then Some(BeyondBuffer(XParam))
    else if y >= s.bufferHeight then Some(BeyondBuffer(YParam))
    else None
  }

  /** `s'` is `s` with at most the back-buffer slot `(x, y)` changed. */
  ghost predicate OnlyCellChanged(s: Screen, s': Screen, x: int, y: int)
    requires Valid(s)
  {
    && Valid(s')
    && s' == s.(backBuffer := s'.backBuffer)
    && forall i, j :: 0 <= i < s.bufferWidth && 0 <= j < s.bufferHeight && (i, j) != (x, y) ==>
         s'.backBuffer[i][j] == s.backBuffer[i][j]
  }

  /**
    `Write(x, y, consoleChar)`: the null check, then the bounds checks, then
    the store into the back buffer. A throw changes nothing.
   */
  function Write(s: Screen, x: int, y: int, consoleChar: Option<Cell>): (o: Outcome)
    requires Valid(s)
    ensures o.Ok? <==> consoleChar.Some? && 0 <= x < s.bufferWidth && 0 <= y < s.bufferHeight
    ensures consoleChar.None? ==> o == Threw(s, ArgumentNull(ConsoleCharParam))
    ensures consoleChar.Some? && o.Threw? ==> o.screen == s && o.error == CheckCoordinates(s, x, y).value
    ensures o.Ok? ==>
      && o.trace == []
      && OnlyCellChanged(s, o.screen, x, y)
      && o.screen.backBuffer[x][y] == consoleChar
  {
    if consoleChar.None? then Threw(s, ArgumentNull(ConsoleCharParam))
    else
      match CheckCoordinates(s, x, y)
      case Some(e) => Threw(s, e)
      case None => Ok(s.(backBuffer := Grid.Set(s.backBuffer, x, y, consoleChar)), [])
  }

  /** `Write(x, y, character, foregroundColor, backgroundColor)`. */
  function WriteChar(s: Screen, x: int, y: int, character: char, foregroundColor: Color, backgroundColor: Color): (o: Outcome)
    requires Valid(s)
    ensures o.Ok? <==> 0 <= x < s.bufferWidth && 0 <= y < s.bufferHeight
    ensures o.Threw? ==> o.screen == s && o.error == CheckCoordinates(s, x, y).value
    ensures o.Ok? ==> o.trace == [] && OnlyCellChanged(s, o.screen, x, y)
    ensures o.Ok? ==> At(o.screen.backBuffer, x, y) == Some(Cell(character, foregroundColor, backgroundColor))
  {
    Write(s, x, y, Some(ConsoleChar.New(character, foregroundColor, backgroundColor)))
  }

  /** `Write(x, y, character)`: the current default colours. */
  function WriteCharDefault(s: Screen, x: int, y: int, character: char): (o: Outcome)
    requires Valid(s)
    ensures o.Ok? <==> 0 <= x < s.bufferWidth && 0 <= y < s.bufferHeight
    ensures o.Threw? ==> o.screen == s && o.error == CheckCoordinates(s, x, y).value
    ensures o.Ok? ==> o.trace == [] && OnlyCellChanged(s, o.screen, x, y)
    ensures o.Ok? ==> At(o.screen.backBuffer, x, y) == Some(Cell(character, s.foregroundColor, s.backgroundColor))
  {
    WriteChar(s, x, y, character, s.foregroundColor, s.backgroundColor)
  }

  /**
    How many leading characters of an `n`-character text written at `(x, y)`
    land inside the buffer: the string `Write` stops at the first one that does not.
   */
  function Fitting(s: Screen, x: int, y: int, n: nat): (k: nat)
    ensures k <= n
  {
    if x < 0 || y < 0 || y >= s.bufferHeight || x >= s.bufferWidth then 0
    else Min(n, s.bufferWidth - x)
  }

  /**
    `s'` is `s` after the first `Fitting` characters of `text` went into the
    back buffer at `(x, y)`, `(x + 1, y)`, ... with the given colours, and
    nothing else changed.
   */
  ghost predicate TextWritten(s: Screen, s': Screen, x: int, y: int, text: string, foregroundColor: Color, backgroundColor: Color)
    requires Valid(s)
  {
    && Valid(s')
    && s' == s.(backBuffer := s'.backBuffer)
    && forall i, j :: 0 <= i < s.bufferWidth && 0 <= j < s.bufferHeight ==>
         s'.backBuffer[i][j] ==
           if j == y && x <= i < x + Fitting(s, x, y, |text|)
           then Some(Cell(text[i - x], foregroundColor, backgroundColor))
           else s.backBuffer[i][j]
  }

  /**
    The `foreach` of the string `Write`: each character in turn through the
    cell `Write`, one column further each time, until one throws.
   */
  function WriteChars(s: Screen, x: int, y: int, text: string, foregroundColor: Color, backgroundColor: Color): (o: Outcome)
    requires Valid(s)
    decreases |text|
    ensures o.Ok? <==> Fitting(s, x, y, |text|) == |text|
    ensures o.Ok? ==> o.trace == []
    ensures o.Threw? ==> o.error == CheckCoordinates(s, x + Fitting(s, x, y, |text|), y).value
    ensures TextWritten(s, o.screen, x, y, text, foregroundColor, backgroundColor)
  {
    if |text| == 0 then Ok(s, [])
    else
      match Write(s, x, y, Some(ConsoleChar.New(text[0], foregroundColor, backgroundColor)))
      case Threw(s1, e) => Threw(s1, e)
      case Ok(s1, _) =>
        var o := WriteChars(s1, x + 1, y, text[1..], foregroundColor, backgroundColor);
        assert Fitting(s, x, y, |text|) == 1 + Fitting(s1, x + 1, y, |text| - 1);
        o
  }

  /**
    `Write(x, y, text, foregroundColor, backgroundColor)`: a null text throws
    before anything is written.
   */
  function WriteText(s: Screen, x: int, y: int, text: Option<string>, foregroundColor: Color, backgroundColor: Color): (o: Outcome)
    requires Valid(s)
    ensures text.None? ==> o == Threw(s, ArgumentNull(TextParam))
    ensures text.Some? ==> (o.Ok? <==> Fitting(s, x, y, |text.value|) == |text.value|)
    ensures text.Some? ==> TextWritten(s, o.screen, x, y, text.value, foregroundColor, backgroundColor)
    ensures text.Some? && o.Ok? ==> o.trace == []
    ensures text.Some? && o.Threw? ==> o.error == CheckCoordinates(s, x + Fitting(s, x, y, |text.value|), y).value
    ensures Valid(o.screen)
  {
    match text
    case None => Threw(s, ArgumentNull(TextParam))
    case Some(t) => WriteChars(s, x, y, t, foregroundColor, backgroundColor)
  }

  /** `Write(x, y, text)`: the current default colours. */
  function WriteTextDefault(s: Screen, x: int, y: int, text: Option<string>): (o: Outcome)
    requires Valid(s)
    ensures text.None? ==> o == Threw(s, ArgumentNull(TextParam))
    ensures text.Some? ==> (o.Ok? <==> Fitting(s, x, y, |text.value|) == |text.value|)
    ensures text.Some? ==> TextWritten(s, o.screen, x, y, text.value, s.foregroundColor, s.backgroundColor)
    ensures text.Some? && o.Ok? ==> o.trace == []
    ensures text.Some? && o.Threw? ==> o.error == CheckCoordinates(s, x + Fitting(s, x, y, |text.value|), y).value
    ensures Valid(o.screen)
  {
    WriteText(s, x, y, text, s.foregroundColor, s.backgroundColor)
  }

  /**
    `Redraw`: adopt the live window size, clear the terminal, then print every
    non-empty displayed cell of the visible region, row by row.
   */
  function Redraw(s: Screen, liveWidth: nat, liveHeight: nat): (f: Frame)
    requires Valid(s)
    ensures Valid(f.screen)
    ensures f.screen == s.(windowWidth := liveWidth, windowHeight := liveHeight)
    ensures |f.trace| >= 1 && f.trace[0] == ClearConsole(s)
    ensures AllPrints(f.trace[1..]) && RowMajor(f.trace[1..])
    ensures forall i :: 1 <= i < |f.trace| ==>
      Visible(f.screen, f.trace[i].x, f.trace[i].y) && At(s.screenBuffer, f.trace[i].x, f.trace[i].y) == Some(f.trace[i].cell)
    ensures forall x, y :: Visible(f.screen, x, y) && At(s.screenBuffer, x, y).Some? ==>
      Print(x, y, At(s.screenBuffer, x, y).value) in f.trace
  {
    var s' := s.(windowWidth := liveWidth, windowHeight := liveHeight);
    var repaint := Scan(ShownAt(s'), VisibleWidth(s'), VisibleHeight(s'));
    var t := [ClearConsole(s')] + repaint;
    assert t[1..] == repaint;
    assert forall x, y :: Visible(s', x, y) && At(s.screenBuffer, x, y).Some? ==> Print(x, y, At(s.screenBuffer, x, y).value) in t by {
      forall x, y | Visible(s', x, y) && At(s.screenBuffer, x, y).Some?
        ensures Print(x, y, At(s.screenBuffer, x, y).value) in t
      {
        assert ShownAt(s')(x, y) == At(s.screenBuffer, x, y);
        assert Print(x, y, At(s.screenBuffer, x, y).value) in repaint;
      }
    }
    Frame(s', t)
  }

  /** `HandleWindowResize`: a full `Redraw` when the live size differs from the recorded one. */
  function HandleWindowResize(s: Screen, liveWidth: nat, liveHeight: nat): (f: Frame)
    requires Valid(s)
    ensures Valid(f.screen)
    ensures f.screen == s.(windowWidth := liveWidth, windowHeight := liveHeight)
    ensures f.trace == [] <==> s.windowWidth == liveWidth && s.windowHeight == liveHeight
    ensures s.windowWidth != liveWidth || s.windowHeight != liveHeight ==> f.trace == Redraw(s, liveWidth, liveHeight).trace
  {
    if s.windowWidth != liveWidth || s.windowHeight != liveHeight then Redraw(s, liveWidth, liveHeight)
    else Frame(s, [])
  }

  /**
    `Draw`: the resize check (which does not end the call), the diff of the
    visible region, then the swap: the back buffer is displayed and a fresh
    empty back buffer is allocated.
   */
  function Draw(s: Screen, liveWidth: nat, liveHeight: nat): (f: Frame)
    requires Valid(s)
    ensures f.screen == s.(windowWidth := liveWidth, windowHeight := liveHeight,
                           screenBuffer := s.backBuffer, backBuffer := f.screen.backBuffer)
    ensures Valid(f.screen)
    ensures forall x, y :: 0 <= x < s.bufferWidth && 0 <= y < s.bufferHeight ==> f.screen.backBuffer[x][y].None?
  {
    var r := HandleWindowResize(s, liveWidth, liveHeight);
    var s1 := r.screen;
    var diff := Scan(DiffAt(s1), VisibleWidth(s1), VisibleHeight(s1));
    Frame(s1.(screenBuffer := s1.backBuffer, backBuffer := Empty(s1.bufferWidth, s1.bufferHeight)), r.trace + diff)
  }

  /** `Clear`: both buffers replaced by empty ones, then the terminal cleared. */
  function Clear(s: Screen): (f: Frame)
    requires Valid(s)
    ensures Valid(f.screen)
    ensures f.trace == [ClearConsole(s)]
    ensures f.screen == s.(screenBuffer := f.screen.screenBuffer, backBuffer := f.screen.backBuffer)
    ensures forall x, y :: 0 <= x < s.bufferWidth && 0 <= y < s.bufferHeight ==>
      f.screen.screenBuffer[x][y].None? && f.screen.backBuffer[x][y].None?
  {
    var s' := s.(screenBuffer := Empty(s.bufferWidth, s.bufferHeight), backBuffer := Empty(s.bufferWidth, s.bufferHeight));
    Frame(s', [ClearConsole(s')])
  }
}

=== FILE: console_screen_props.dfy ===
/**
  What the renderer promises across calls: the exact trace of a frame diff,
  the full repaint after a resize, what idle frames print, and the
  write/draw round trip.
 */
module ConsoleScreenProps {
  import opened Wrappers
  import opened ConsoleChar
  import opened Trace
  import opened ConsoleScreen

  /**
    The visible positions whose effective back-buffer value differs from the
    displayed one, leaving out those where both are empty: where a frame
    diff must print.
   */
  ghost function Differing(s: Screen): set<(int, int)>
  {
    set x, y |
      && 0 <= x < VisibleWidth(s) && 0 <= y < VisibleHeight(s)
      && (At(s.backBuffer, x, y).Some? || At(s.screenBuffer, x, y).Some?)
      && Some(Effective(At(s.backBuffer, x, y), ClearingSpace(s))) != At(s.screenBuffer, x, y)
      :: (x, y)
  }

  /** The visible positions holding a displayed character: what a full repaint prints. */
  ghost function Shown(s: Screen): set<(int, int)>
  {
    set x, y | 0 <= x < VisibleWidth(s) && 0 <= y < VisibleHeight(s) && At(s.screenBuffer, x, y).Some? :: (x, y)
  }

  /** A trace is exactly the frame diff of `s`: which cells it prints, what, in which order and how often. */
  ghost predicate IsDiffOf(t: seq<Event>, s: Screen)
  {
    && AllPrints(t)
    && RowMajor(t)
    && (forall i :: 0 <= i < |t| ==>
          && Visible(s, t[i].x, t[i].y)
          && (t[i].x, t[i].y) in Differing(s)
          && t[i].cell == Effective(At(s.backBuffer, t[i].x, t[i].y), ClearingSpace(s)))
    && (forall x, y :: (x, y) in Differing(s) ==>
          Print(x, y, Effective(At(s.backBuffer, x, y), ClearingSpace(s))) in t)
    && |t| == |Differing(s)|
  }

  /** The scan `Draw` makes is the diff: its marked positions are the differing ones. */
  lemma DiffScanIsDiff(s: Screen)
    ensures IsDiffOf(Scan(DiffAt(s), VisibleWidth(s), VisibleHeight(s)), s)
  {
    var t := Scan(DiffAt(s), VisibleWidth(s), VisibleHeight(s));
    assert Marked(DiffAt(s), VisibleWidth(s), VisibleHeight(s)) == Differing(s);
    ScanCount(DiffAt(s), VisibleWidth(s), VisibleHeight(s));
    forall x, y | (x, y) in Differing(s)
      ensures Print(x, y, Effective(At(s.backBuffer, x, y), ClearingSpace(s))) in t
    {
      assert DiffAt(s)(x, y).Some?;
    }
  }

  /**
    With the window size unchanged, `Draw` prints exactly the diff of the
    visible region, in row-major order, one print per differing cell.
   */
  lemma DrawWithoutResize(s: Screen, liveWidth: nat, liveHeight: nat)
    requires Valid(s)
    requires s.windowWidth == liveWidth && s.windowHeight == liveHeight
    ensures IsDiffOf(Draw(s, liveWidth, liveHeight).trace, s)
  {
    DiffScanIsDiff(s);
  }

  /** A position empty both in the back buffer and on display is never printed. */
  lemma EmptyOverEmptyNotPrinted(s: Screen, liveWidth: nat, liveHeight: nat, x: int, y: int)
    requires Valid(s)
    requires s.windowWidth == liveWidth && s.windowHeight == liveHeight
    requires At(s.backBuffer, x, y).None? && At(s.screenBuffer, x, y).None?
    ensures forall i :: 0 <= i < |Draw(s, liveWidth, liveHeight).trace| ==>
      (Draw(s, liveWidth, liveHeight).trace[i].x, Draw(s, liveWidth, liveHeight).trace[i].y) != (x, y)
  {
    DrawWithoutResize(s, liveWidth, liveHeight);
  }

  /** The repaint scan of `Redraw` prints every displayed visible cell once, in row-major order. */
  lemma RepaintIsShown(s: Screen)
    ensures var p := Scan(ShownAt(s), VisibleWidth(s), VisibleHeight(s));
      && |p| == |Shown(s)|
      && AllPrints(p) && RowMajor(p)
      && (forall i :: 0 <= i < |p| ==> (p[i].x, p[i].y) in Shown(s) && At(s.screenBuffer, p[i].x, p[i].y) == Some(p[i].cell))
      && (forall x, y :: (x, y) in Shown(s) ==> Print(x, y, At(s.screenBuffer, x, y).value) in p)
  {
    var p := Scan(ShownAt(s), VisibleWidth(s), VisibleHeight(s));
    assert Marked(ShownAt(s), VisibleWidth(s), VisibleHeight(s)) == Shown(s);
    ScanCount(ShownAt(s), VisibleWidth(s), VisibleHeight(s));
    forall x, y | (x, y) in Shown(s)
      ensures Print(x, y, At(s.screenBuffer, x, y).value) in p
    {
      assert ShownAt(s)(x, y).Some?;
    }
  }

  /**
    When the live size differs from the recorded one, `Draw` first repaints
    (clear, then every non-empty displayed cell of the new visible region)
    and then still runs the diff against the new window size.
   */
  lemma DrawAfterResize(s: Screen, liveWidth: nat, liveHeight: nat)
    requires Valid(s)
    requires s.windowWidth != liveWidth || s.windowHeight != liveHeight
    ensures var t := Draw(s, liveWidth, liveHeight).trace;
      var s' := s.(windowWidth := liveWidth, windowHeight := liveHeight);
      var n := 1 + |Shown(s')|;
      && |t| >= n
      && t[0] == ClearConsole(s)
      && AllPrints(t[1..n]) && RowMajor(t[1..n])
      && (forall i :: 1 <= i < n ==>
            (t[i].x, t[i].y) in Shown(s') && At(s.screenBuffer, t[i].x, t[i].y) == Some(t[i].cell))
      && (forall x, y :: (x, y) in Shown(s') ==> Print(x, y, At(s.screenBuffer, x, y).value) in t[..n])
      && IsDiffOf(t[n..], s')
  {
    var s' := s.(windowWidth := liveWidth, windowHeight := liveHeight);
    var p := Scan(ShownAt(s'), VisibleWidth(s'), VisibleHeight(s'));
    var d := Scan(DiffAt(s'), VisibleWidth(s'), VisibleHeight(s'));
    RepaintIsShown(s');
    DiffScanIsDiff(s');
    var t := Draw(s, liveWidth, liveHeight).trace;
    var n := 1 + |Shown(s')|;
    assert t == [ClearConsole(s')] + p + d;
    assert t[1..n] == p;
    assert t[n..] == d;
    forall i | 1 <= i < n
      ensures (t[i].x, t[i].y) in Shown(s') && At(s.screenBuffer, t[i].x, t[i].y) == Some(t[i].cell)
    {
      assert t[i] == p[i - 1];
    }
    forall x, y | (x, y) in Shown(s')
      ensures Print(x, y, At(s.screenBuffer, x, y).value) in t[..n]
    {
      assert t[..n] == [ClearConsole(s')] + p;
    }
  }

  /** The first frame with nothing drawn yet prints exactly the non-empty visible back-buffer cells. */
  lemma FirstFrameDrawsWrittenCells(s: Screen, x: int, y: int)
    requires Valid(s)
    requires forall i, j :: 0 <= i < s.bufferWidth && 0 <= j < s.bufferHeight ==> s.screenBuffer[i][j].None?
    ensures (x, y) in Differing(s) <==> Visible(s, x, y) && At(s.backBuffer, x, y).Some?
  {
  }

  /**
    The second of two `Draw` calls with no write between them (and no
    resize) prints the clearing space exactly where the first one left a
    character on the visible screen that is not already that space.
   */
  lemma SecondIdleDraw(s: Screen, liveWidth: nat, liveHeight: nat)
    requires Valid(s)
    ensures var s1 := Draw(s, liveWidth, liveHeight).screen;
      var t := Draw(s1, liveWidth, liveHeight).trace;
      && AllPrints(t) && RowMajor(t)
      && (forall i :: 0 <= i < |t| ==> t[i].cell == ClearingSpace(s))
      && (forall x, y :: (x, y) in Differing(s1) <==>
            Visible(s1, x, y) && At(s.backBuffer, x, y).Some? && At(s.backBuffer, x, y) != Some(ClearingSpace(s)))
      && IsDiffOf(t, s1)
  {
    var s1 := Draw(s, liveWidth, liveHeight).screen;
    DrawWithoutResize(s1, liveWidth, liveHeight);
    var t := Draw(s1, liveWidth, liveHeight).trace;
    forall i | 0 <= i < |t| ensures t[i].cell == ClearingSpace(s) {
      assert At(s1.backBuffer, t[i].x, t[i].y).None?;
    }
    forall x, y ensures (x, y) in Differing(s1) <==>
      Visible(s1, x, y) && At(s.backBuffer, x, y).Some? && At(s.backBuffer, x, y) != Some(ClearingSpace(s))
    {
      assert At(s1.backBuffer, x, y).None?;
    }
  }

  /** The third of three consecutive `Draw` calls with no write between them prints nothing. */
  lemma ThirdIdleDraw(s: Screen, liveWidth: nat, liveHeight: nat)
    requires Valid(s)
    ensures var s1 := Draw(s, liveWidth, liveHeight).screen;
      var s2 := Draw(s1, liveWidth, liveHeight).screen;
      Draw(s2, liveWidth, liveHeight).trace == []
  {
    var s1 := Draw(s, liveWidth, liveHeight).screen;
    var s2 := Draw(s1, liveWidth, liveHeight).screen;
    ScanEmpty(DiffAt(s2), VisibleWidth(s2), VisibleHeight(s2));
    forall x, y | 0 <= x < VisibleWidth(s2) && 0 <= y < VisibleHeight(s2)
      ensures DiffAt(s2)(x, y).None?
    {
      assert At(s2.backBuffer, x, y).None? && At(s2.screenBuffer, x, y).None?;
    }
  }

  /**
    A cell written and then drawn is displayed afterwards; when it is visible,
    no resize happens and it differs from what was displayed, the draw prints it.
   */
  lemma WriteThenDraw(s: Screen, x: int, y: int, c: Cell, liveWidth: nat, liveHeight: nat)
    requires Valid(s)
    requires Write(s, x, y, Some(c)).Ok?
    ensures var s1 := Write(s, x, y, Some(c)).screen;
      var f := Draw(s1, liveWidth, liveHeight);
      && At(f.screen.screenBuffer, x, y) == Some(c)
      && ((s.windowWidth == liveWidth && s.windowHeight == liveHeight && Visible(s, x, y)
           && At(s.screenBuffer, x, y) != Some(c)) ==> Print(x, y, c) in f.trace)
  {
    var s1 := Write(s, x, y, Some(c)).screen;
    if s.windowWidth == liveWidth && s.windowHeight == liveHeight && Visible(s, x, y) && At(s.screenBuffer, x, y) != Some(c) {
      DrawWithoutResize(s1, liveWidth, liveHeight);
      assert (x, y) in Differing(s1);
    }
  }

  /** After `Clear`, a `Draw` without resize prints nothing. */
  lemma ClearThenDraw(s: Screen, liveWidth: nat, liveHeight: nat)
    requires Valid(s)
    requires s.windowWidth == liveWidth && s.windowHeight == liveHeight
    ensures Draw(Clear(s).screen, liveWidth, liveHeight).trace == []
  {
    var s1 := Clear(s).screen;
    ScanEmpty(DiffAt(s1), VisibleWidth(s1), VisibleHeight(s1));
    forall x, y | 0 <= x < VisibleWidth(s1) && 0 <= y < VisibleHeight(s1)
      ensures DiffAt(s1)(x, y).None?
    {
      assert At(s1.backBuffer, x, y).None? && At(s1.screenBuffer, x, y).None?;
    }
  }

  /** Redraw prints one character per non-empty visible displayed cell, after the clear. */
  lemma RedrawCount(s: Screen, liveWidth: nat, liveHeight: nat)
    requires Valid(s)
    ensures |Redraw(s, liveWidth, liveHeight).trace| == 1 + |Shown(s.(windowWidth := liveWidth, windowHeight := liveHeight))|
  {
    var s' := s.(windowWidth := liveWidth, windowHeight := liveHeight);
    ScanCount(ShownAt(s'), VisibleWidth(s'), VisibleHeight(s'));
    assert Marked(ShownAt(s'), VisibleWidth(s'), VisibleHeight(s')) == Shown(s');
  }

  /** A frame whose diff has a single differing position prints exactly that one cell. */
  lemma SingleDifference(s: Screen, liveWidth: nat, liveHeight: nat, x: int, y: int)
    requires Valid(s)
    requires s.windowWidth == liveWidth && s.windowHeight == liveHeight
    requires Differing(s) == {(x, y)}
    ensures Draw(s, liveWidth, liveHeight).trace == [Print(x, y, Effective(At(s.backBuffer, x, y), ClearingSpace(s)))]
  {
    DrawWithoutResize(s, liveWidth, liveHeight);
    var t := Draw(s, liveWidth, liveHeight).trace;
    assert |t| == 1;
  }

  /** The screen of the scenario below after `Initialize` and the write of 'X'. */
  function ScenarioScreen(s0: Screen): Screen
  {
    var o := Initialize(s0, 5, 3, Black, White, false, 80, 25, true);
    WriteChar(o.screen, 2, 1, 'X', Red, Black).screen
  }

  lemma ScenarioWrites(s0: Screen)
    ensures var o := Initialize(s0, 5, 3, Black, White, false, 80, 25, true);
      && o.Ok?
      && o.screen.windowWidth == 80 && o.screen.windowHeight == 25
      && WriteChar(o.screen, 2, 1, 'X', Red, Black).Ok?
    ensures var s := ScenarioScreen(s0);
      && Valid(s) && s.windowWidth == 80 && s.windowHeight == 25
      && s.bufferWidth == 5 && s.bufferHeight == 3
      && s.foregroundColor == White && s.backgroundColor == Black
      && At(s.backBuffer, 2, 1) == Some(Cell('X', Red, Black))
      && (forall x, y :: (x, y) != (2, 1) ==> At(s.backBuffer, x, y).None?)
      && (forall x, y :: At(s.screenBuffer, x, y).None?)
  {
  }

  /** A diff against an empty display differs at one position when the back buffer holds one cell there and nothing else. */
  lemma OneWrittenCellDiffers(s: Screen, x: int, y: int)
    requires Visible(s, x, y) && At(s.backBuffer, x, y).Some?
    requires forall i, j :: (i, j) != (x, y) ==> At(s.backBuffer, i, j).None?
    requires forall i, j :: At(s.screenBuffer, i, j).None?
    ensures Differing(s) == {(x, y)}
  {
    assert (x, y) in Differing(s);
    forall p | p in Differing(s) ensures p == (x, y) {
      assert At(s.backBuffer, p.0, p.1).Some?;
    }
  }

  /** A diff against a display holding one cell differs only there when the back buffer is empty and the cell is not the clearing space. */
  lemma OneShownCellDiffers(s: Screen, x: int, y: int)
    requires Visible(s, x, y) && At(s.screenBuffer, x, y).Some? && At(s.screenBuffer, x, y) != Some(ClearingSpace(s))
    requires forall i, j :: (i, j) != (x, y) ==> At(s.screenBuffer, i, j).None?
    requires forall i, j :: At(s.backBuffer, i, j).None?
    ensures Differing(s) == {(x, y)}
  {
    assert (x, y) in Differing(s);
    forall p | p in Differing(s) ensures p == (x, y) {
      assert At(s.screenBuffer, p.0, p.1).Some?;
    }
  }

  /**
    A 5 by 3 screen with White on Black defaults in an 80 by 25 window: one
    written 'X' is the only print of the first frame; the next idle frame
    prints the clearing space there, which comes out Black on White.
   */
  lemma FirstFrameScenario(s0: Screen)
    ensures Draw(ScenarioScreen(s0), 80, 25).trace == [Print(2, 1, Cell('X', Red, Black))]
    ensures Draw(Draw(ScenarioScreen(s0), 80, 25).screen, 80, 25).trace == [Print(2, 1, Cell(' ', Black, White))]
  {
    ScenarioWrites(s0);
    var s := ScenarioScreen(s0);
    OneWrittenCellDiffers(s, 2, 1);
    SingleDifference(s, 80, 25, 2, 1);
    var s1 := Draw(s, 80, 25).screen;
    OneShownCellDiffers(s1, 2, 1);
    SingleDifference(s1, 80, 25, 2, 1);
  }
}

=== FILE: display_props.dfy ===
/**
  What the renderer's events do to the console: a repaint shows every
  displayed character, and each frame keeps the console showing what the
  screen buffer holds.
 */
module DisplayProps {
  import opened Wrappers
  import opened ConsoleChar
  import opened Trace
  import opened Terminal
  import opened ConsoleScreen
  import opened ConsoleScreenProps

  /** The console shows every non-empty visible cell of the screen buffer. */
  ghost predicate Displays(c: Console, s: Screen)
  {
    forall x, y :: Visible(s, x, y) && At(s.screenBuffer, x, y).Some? ==>
      (x, y) in c.cells && c.cells[(x, y)] == At(s.screenBuffer, x, y).value
  }

  /**
    `ClearConsole` wipes every printed character and leaves the console with
    the screen's cursor flag and default colours.
   */
  lemma ClearConsoleBlanks(c: Console, s: Screen)
    ensures var r := Apply(c, ClearConsole(s));
      && r.cells == map[]
      && r.cursorVisible == s.displayCursor
      && r.background == s.backgroundColor && r.foreground == s.foregroundColor
      && r.blank == s.backgroundColor
  {
    ClearForgetsPrints(c, s.displayCursor, s.backgroundColor, s.foregroundColor);
  }

  /**
    Whatever the console showed before, after `Redraw` it shows every
    non-empty visible displayed cell, on a background cleared with the default
    background colour.
   */
  lemma RedrawDisplays(c: Console, s: Screen, liveWidth: nat, liveHeight: nat)
    requires Valid(s)
    ensures var f := Redraw(s, liveWidth, liveHeight);
      && Displays(Replay(c, f.trace), f.screen)
      && Replay(c, f.trace).cursorVisible == s.displayCursor
      && Replay(c, f.trace).blank == s.backgroundColor
  {
    var f := Redraw(s, liveWidth, liveHeight);
    var t := f.trace;
    var c1 := Apply(c, t[0]);
    assert t == [t[0]] + t[1..];
    ReplayConcat(c, [t[0]], t[1..]);
    assert Replay(c, [t[0]]) == Replay(c1, []);
    ReplayPrints(c1, t[1..]);
    var r := Replay(c, t);
    forall x, y | Visible(f.screen, x, y) && At(f.screen.screenBuffer, x, y).Some?
      ensures (x, y) in r.cells && r.cells[(x, y)] == At(f.screen.screenBuffer, x, y).value
    {
      var e := Print(x, y, At(s.screenBuffer, x, y).value);
      assert e in t;
      var i :| 0 <= i < |t| && t[i] == e;
      assert i != 0;
      assert t[1..][i - 1] == e;
    }
  }

  /**
    The diff of a frame, replayed on a console that shows the screen buffer,
    leaves it showing the back buffer that `Draw` then displays.
   */
  lemma DiffDisplays(c: Console, s: Screen)
    requires Valid(s)
    requires Displays(c, s)
    ensures Displays(Replay(c, Scan(DiffAt(s), VisibleWidth(s), VisibleHeight(s))), s.(screenBuffer := s.backBuffer))
  {
    var d := Scan(DiffAt(s), VisibleWidth(s), VisibleHeight(s));
    var s' := s.(screenBuffer := s.backBuffer);
    DiffScanIsDiff(s);
    ReplayPrints(c, d);
    var r := Replay(c, d);
    forall x, y | Visible(s', x, y) && At(s'.screenBuffer, x, y).Some?
      ensures (x, y) in r.cells && r.cells[(x, y)] == At(s'.screenBuffer, x, y).value
    {
      var v := At(s.backBuffer, x, y).value;
      if (x, y) in Differing(s) {
        var e := Print(x, y, Effective(At(s.backBuffer, x, y), ClearingSpace(s)));
        assert e in d;
        var i :| 0 <= i < |d| && d[i] == e;
      } else {
        assert At(s.screenBuffer, x, y) == Some(v);
        forall i | 0 <= i < |d|
          ensures (d[i].x, d[i].y) != (x, y)
        {
          assert (d[i].x, d[i].y) in Differing(s);
        }
      }
    }
  }

  /**
    After `Draw` the console shows every non-empty visible cell of the new
    screen buffer (the old back buffer). This holds when the console showed
    the old screen buffer, and after any resize, because the repaint restores
    the display first.
   */
  lemma DrawDisplays(c: Console, s: Screen, liveWidth: nat, liveHeight: nat)
    requires Valid(s)
    requires Displays(c, s) || s.windowWidth != liveWidth || s.windowHeight != liveHeight
    ensures var f := Draw(s, liveWidth, liveHeight); Displays(Replay(c, f.trace), f.screen)
  {
    var h := HandleWindowResize(s, liveWidth, liveHeight);
    var s1 := h.screen;
    var d := Scan(DiffAt(s1), VisibleWidth(s1), VisibleHeight(s1));
    var f := Draw(s, liveWidth, liveHeight);
    assert f.trace == h.trace + d;
    ReplayConcat(c, h.trace, d);
    var c1 := Replay(c, h.trace);
    if s.windowWidth != liveWidth || s.windowHeight != liveHeight {
      RedrawDisplays(c, s, liveWidth, liveHeight);
    } else {
      assert c1 == c && s1 == s;
    }
    DiffDisplays(c1, s1);
    assert f.screen.screenBuffer == s1.backBuffer;
  }

  /**
    A displayed character that nothing wrote this frame is overwritten by the
    clearing space, so the console shows a space whose colours are the
    defaults swapped, not the blank a clear would leave.
   */
  lemma StaleCellShowsSwappedSpace(c: Console, s: Screen, liveWidth: nat, liveHeight: nat, x: int, y: int)
    requires Valid(s)
    requires s.windowWidth == liveWidth && s.windowHeight == liveHeight
    requires Displays(c, s)
    requires Visible(s, x, y) && At(s.backBuffer, x, y).None? && At(s.screenBuffer, x, y).Some?
    ensures var r := Replay(c, Draw(s, liveWidth, liveHeight).trace);
      && (x, y) in r.cells
      && r.cells[(x, y)] == Cell(' ', s.backgroundColor, s.foregroundColor)
  {
    var d := Draw(s, liveWidth, liveHeight).trace;
    DrawWithoutResize(s, liveWidth, liveHeight);
    ReplayPrints(c, d);
    if (x, y) in Differing(s) {
      var e := Print(x, y, ClearingSpace(s));
      assert e in d;
      var i :| 0 <= i < |d| && d[i] == e;
    } else {
      forall i | 0 <= i < |d|
        ensures (d[i].x, d[i].y) != (x, y)
      {
        assert (d[i].x, d[i].y) in Differing(s);
      }
    }
  }
}

=== FILE: grid.dfy ===
/**
  Two-dimensional grids as sequences of columns, indexed `g[x][y]` like the
  C# rectangular arrays `T[width, height]` they stand for.
 */
module Grid {

  /** `g` has `width` columns of `height` cells each. */
  ghost predicate IsGrid<T>(g: seq<seq<T>>, width: int, height: int)
  {
    && |g| == width
    && forall x :: 0 <= x < |g| ==> |g[x]| == height
  }

  /** A freshly allocated `width` by `height` array whose every cell holds `v`. */
  function Filled<T>(width: nat, height: nat, v: T): (g: seq<seq<T>>)
    ensures IsGrid(g, width, height)
    ensures forall x, y :: 0 <= x < width && 0 <= y < height ==> g[x][y] == v
  {
    seq(width, _ => seq(height, _ => v))
  }

  /** Two grids of the same size with the same cells are the same grid. */
  lemma SameCells<T>(a: seq<seq<T>>, b: seq<seq<T>>, width: int, height: int)
    requires IsGrid(a, width, height) && IsGrid(b, width, height)
    requires forall x, y :: 0 <= x < width && 0 <= y < height ==> a[x][y] == b[x][y]
    ensures a == b
  {
    forall x | 0 <= x < width
      ensures a[x] == b[x]
    {
      assert |a[x]| == |b[x]| == height;
    }
  }

  /** The array after the assignment `g[x, y] = v`. */
  function Set<T>(g: seq<seq<T>>, x: int, y: int, v: T): (r: seq<seq<T>>)
    requires 0 <= x < |g| && 0 <= y < |g[x]|
    ensures |r| == |g|
    ensures forall i :: 0 <= i < |g| ==> |r[i]| == |g[i]|
    ensures r[x][y] == v
    ensures forall i, j :: 0 <= i < |g| && 0 <= j < |g[i]| && (i, j) != (x, y) ==> r[i][j] == g[i][j]
  {
    g[x := g[x][y := v]]
  }
}

=== FILE: map.dfy ===
/**
  The dungeon map record: tiles, rooms and enemies, with the rectangle and
  position types it holds.
 */
module Map {
  import opened Wrappers
  import Grid

  /** The tile kinds. `Floor` is listed first, so it is the value of an unset tile. */
  datatype Tile = Floor | VerticalWall | HorizontalWall | Door

  /**
    A `System.Drawing.Rectangle`: origin and size, with `Right` and `Bottom`
    one past the last column and row.
   */
  datatype Rect = Rect(x: int, y: int, width: int, height: int)
  {
    function Left(): int { x }
    function Top(): int { y }
    function Right(): int { x + width }
    function Bottom(): int { y + height }

    /** The cell `(px, py)` lies in the half-open rectangle. */
    predicate Contains(px: int, py: int)
    {
      Left() <= px < Right() && Top() <= py < Bottom()
    }

    /** `IntersectsWith`: the two half-open rectangles overlap on both axes. */
    predicate IntersectsWith(r: Rect)
    {
      && r.x < x + width && x < r.x + r.width
      && r.y < y + height && y < r.y + r.height
    }
  }

  /** A cell of the map: where an enemy or the player stands. */
  datatype Position = Position(x: int, y: int)

  /** The map: `tiles[x][y]` for `0 <= x < width` and `0 <= y < height`. */
  datatype Map = Map(width: int, height: int, tiles: seq<seq<Tile>>, rooms: seq<Rect>, enemies: seq<Position>)

  /**
    The constructor. Allocating the tile array throws for a negative size,
    which is `None` here.
   */
  function New(width: int, height: int): (r: Option<Map>)
    ensures r.Some? <==> width >= 0 && height >= 0
    ensures r.Some? ==>
      && r.value.width == width && r.value.height == height
      && Grid.IsGrid(r.value.tiles, width, height)
      && (forall x, y :: 0 <= x < width && 0 <= y < height ==> r.value.tiles[x][y] == Floor)
      && r.value.rooms == [] && r.value.enemies == []
  {
    if width < 0 || height < 0 then None
    else Some(Map(width, height, Grid.Filled(width, height, Floor), [], []))
  }

  /** Overlap in the sense of `IntersectsWith` is symmetric. */
  lemma IntersectsSymmetric(a: Rect, b: Rect)
    ensures a.IntersectsWith(b) <==> b.IntersectsWith(a)
  {
  }

  /**
    For rectangles of positive size, `IntersectsWith` holds exactly when
    some cell lies in both.
   */
  lemma IntersectsIffCommonCell(a: Rect, b: Rect)
    requires a.width > 0 && a.height > 0 && b.width > 0 && b.height > 0
    ensures a.IntersectsWith(b) <==> exists px, py :: a.Contains(px, py) && b.Contains(px, py)
  {
    if a.IntersectsWith(b) {
      var px := if a.x >= b.x then a.x else b.x;
      var py := if a.y >= b.y then a.y else b.y;
      assert a.Contains(px, py) && b.Contains(px, py);
    }
  }
}

=== FILE: map_generator.dfy ===
/**
  The dungeon generator: rooms placed by rejection sampling and carved into
  the tiles, a door on each room, then enemies dropped on floor tiles. The
  random draws are parameters; each carries the range `System.Random`
  guarantees as a precondition.
 */
module MapGenerator {
  import opened Map
  import Grid

  const MinRooms := 6
  const MaxRooms := 8
  const MinRoomWidth := 8
  const MaxRoomWidth := 10
  const MinRoomHeight := 6
  const MaxRoomHeight := 8
  const MaxAttempts := 10
  const MinEnemies := 10
  const MaxEnemies := 20

  /** A value `Random.Next(maxValue)` can return: below `maxValue`, or 0 when `maxValue` is 0. */
  predicate NextBelow(v: int, maxValue: int)
  {
    if maxValue == 0 then v == 0 else 0 <= v < maxValue
  }

  /** A value `Random.Next(minValue, maxValue)` can return. */
  predicate NextBetween(v: int, minValue: int, maxValue: int)
  {
    minValue <= v < maxValue
  }

  /** A rectangle the four draws of one `CreateRoom` attempt can produce. */
  predicate Candidate(width: int, height: int, room: Rect)
  {
    && NextBelow(room.x, width - 1)
    && NextBelow(room.y, height - 1)
    && NextBetween(room.width, MinRoomWidth, MaxRoomWidth)
    && NextBetween(room.height, MinRoomHeight, MaxRoomHeight)
  }

  /** The tiles form a `width` by `height` grid, with room for the draws `Random.Next(width - 1)`. */
  ghost predicate WellFormed(m: Map)
  {
    && m.width >= 1 && m.height >= 1
    && Grid.IsGrid(m.tiles, m.width, m.height)
  }

  /** The room lies inside the map, one column and row short of the far edges. */
  predicate RoomInBounds(m: Map, room: Rect)
  {
    0 <= room.Left() && room.Right() < m.width && 0 <= room.Top() && room.Bottom() < m.height
  }

  /** The cell is in the room but not on its border. */
  predicate Interior(room: Rect, x: int, y: int)
  {
    room.Left() < x < room.Right() - 1 && room.Top() < y < room.Bottom() - 1
  }

  /** The cell is on the border ring of the room. */
  predicate OnRing(room: Rect, x: int, y: int)
  {
    room.Contains(x, y) && !Interior(room, x, y)
  }

  /** What the carving loop puts at a cell of the room, decided in the order of the loop's conditions. */
  function CarvedTile(room: Rect, x: int, y: int): Tile
  {
    if y == room.Top() || y == room.Bottom() - 1 then HorizontalWall
    else if x == room.Left() || x == room.Right() - 1 then VerticalWall
    else Floor
  }

  /**
    Where the door goes for the drawn side: the middle of the left or right
    wall, or the middle of the top or bottom wall measured back from `Right`.
   */
  function DoorPosition(room: Rect, side: int): Position
  {
    if side == 0 then Position(room.Left(), room.Top() + room.height / 2)
    else if side == 1 then Position(room.Right() - 1, room.Top() + room.height / 2)
    else if side == 2 then Position(room.Right() - room.width / 2, room.Top())
    else if side == 3 then Position(room.Right() - room.width / 2, room.Bottom() - 1)
    else Position(0, 0)
  }

  /** The cell is one of the room's four corners. */
  predicate Corner(room: Rect, x: int, y: int)
  {
    (x == room.Left() || x == room.Right() - 1) && (y == room.Top() || y == room.Bottom() - 1)
  }

  /**
    The room as `CarveRoom` leaves it: the door at the drawn side's position,
    every other cell of the room as the carving loop set it.
   */
  ghost predicate Carved(m: Map, room: Rect, side: int)
  {
    forall x, y :: room.Contains(x, y) ==>
      && 0 <= x < |m.tiles| && 0 <= y < |m.tiles[x]|
      && m.tiles[x][y] == (if (x, y) == (DoorPosition(room, side).x, DoorPosition(room, side).y) then Door else CarvedTile(room, x, y))
  }

  /** A carved room in the tiles: floor inside, something other than floor on its ring. */
  ghost predicate RoomIntact(m: Map, room: Rect)
  {
    forall x, y :: 0 <= x < |m.tiles| && 0 <= y < |m.tiles[x]| && room.Contains(x, y) ==>
      (m.tiles[x][y] == Floor <==> Interior(room, x, y))
  }

  /** No two rooms of the list overlap. */
  ghost predicate Disjoint(rooms: seq<Rect>)
  {
    forall i, j :: 0 <= i < |rooms| && 0 <= j < |rooms| && i != j ==> !rooms[i].IntersectsWith(rooms[j])
  }

  /** What room generation keeps: every room in bounds, of a drawable size, intact, and no two overlapping. */
  ghost predicate RoomsValid(m: Map)
  {
    && WellFormed(m)
    && Disjoint(m.rooms)
    && forall i :: 0 <= i < |m.rooms| ==>
         && RoomInBounds(m, m.rooms[i])
         && Candidate(m.width, m.height, m.rooms[i])
         && RoomIntact(m, m.rooms[i])
  }

  /** The door lies on the ring of a room of drawable size, and not on a corner. */
  lemma DoorOnRing(room: Rect, side: int)
    requires NextBetween(room.width, MinRoomWidth, MaxRoomWidth)
    requires NextBetween(room.height, MinRoomHeight, MaxRoomHeight)
    requires 0 <= side < 4
    ensures OnRing(room, DoorPosition(room, side).x, DoorPosition(room, side).y)
    ensures CarvedTile(room, DoorPosition(room, side).x, DoorPosition(room, side).y) != Floor
    ensures !Corner(room, DoorPosition(room, side).x, DoorPosition(room, side).y)
  {
  }

  /**
    `CarveRoom`: the nested loops over the room's columns and rows set the
    top and bottom rows (corners included) to horizontal wall, the rest of
    the left and right columns to vertical wall and the inside to floor;
    then the door replaces one wall tile. Nothing outside the room changes.
   */
  method CarveRoom(m: Map, room: Rect, side: int) returns (r: Map)
    requires WellFormed(m) && RoomInBounds(m, room) && Candidate(m.width, m.height, room)
    requires 0 <= side < 4
    ensures WellFormed(r)
    ensures r == m.(tiles := r.tiles)
    ensures forall x, y :: 0 <= x < m.width && 0 <= y < m.height && !room.Contains(x, y) ==>
      r.tiles[x][y] == m.tiles[x][y]
    ensures forall x, y :: room.Contains(x, y) && (x, y) != (DoorPosition(room, side).x, DoorPosition(room, side).y) ==>
      && ((y == room.Top() || y == room.Bottom() - 1) ==> r.tiles[x][y] == HorizontalWall)
      && ((y != room.Top() && y != room.Bottom() - 1 && (x == room.Left() || x == room.Right() - 1)) ==> r.tiles[x][y] == VerticalWall)
      && (Interior(room, x, y) ==> r.tiles[x][y] == Floor)
    ensures forall x, y :: room.Contains(x, y) ==>
      (r.tiles[x][y] == Door <==> (x, y) == (DoorPosition(room, side).x, DoorPosition(room, side).y))
    ensures Carved(r, room, side)
    ensures RoomIntact(r, room)
  {
    var tiles := m.tiles;
    var x := room.Left();
    while x < room.Right()
      invariant room.Left() <= x <= room.Right()
      invariant Grid.IsGrid(tiles, m.width, m.height)
      invariant forall i, j :: 0 <= i < m.width && 0 <= j < m.height && !(room.Left() <= i < x && room.Top() <= j < room.Bottom()) ==>
        tiles[i][j] == m.tiles[i][j]
      invariant forall i, j :: room.Left() <= i < x && room.Top() <= j < room.Bottom() ==> tiles[i][j] == CarvedTile(room, i, j)
    {
      var y := room.Top();
      while y < room.Bottom()
        invariant room.Top() <= y <= room.Bottom()
        invariant Grid.IsGrid(tiles, m.width, m.height)
        invariant forall i, j ::
          (0 <= i < m.width && 0 <= j < m.height
           && !(room.Left() <= i < x && room.Top() <= j < room.Bottom()) && !(i == x && room.Top() <= j < y)) ==>
          tiles[i][j] == m.tiles[i][j]
        invariant forall i, j :: room.Left() <= i < x && room.Top() <= j < room.Bottom() ==> tiles[i][j] == CarvedTile(room, i, j)
        invariant forall j :: room.Top() <= j < y ==> tiles[x][j] == CarvedTile(room, x, j)
      {
        if y == room.Top() || y == room.Bottom() - 1 {
          tiles := Grid.Set(tiles, x, y, HorizontalWall);
        } else if x == room.Left() || x == room.Right() - 1 {
          tiles := Grid.Set(tiles, x, y, VerticalWall);
        } else {
          tiles := Grid.Set(tiles, x, y, Floor);
        }
        y := y + 1;
      }
      x := x + 1;
    }
    var door := DoorPosition(room, side);
    DoorOnRing(room, side);
    tiles := Grid.Set(tiles, door.x, door.y, Door);
    r := m.(tiles := tiles);
  }

  /** Column `x` of the tiles after carving: each cell of the room as `Carved` prescribes, the rest as before. */
  function CarvedColumn(column: seq<Tile>, room: Rect, side: int, x: int): seq<Tile>
  {
    seq(|column|, y requires 0 <= y < |column| =>
      if !room.Contains(x, y) then column[y]
      else if (x, y) == (DoorPosition(room, side).x, DoorPosition(room, side).y) then Door
      else CarvedTile(room, x, y))
  }

  /** The first `n` columns of the tiles after carving. */
  function CarvedPrefix(tiles: seq<seq<Tile>>, room: Rect, side: int, n: nat): seq<seq<Tile>>
    requires n <= |tiles|
  {
    if n == 0 then [] else CarvedPrefix(tiles, room, side, n - 1) + [CarvedColumn(tiles[n - 1], room, side, n - 1)]
  }

  /**
    The tiles after carving `room` with its door on `side`: the walls, floor
    and door inside the room, every other cell as before.
   */
  function CarvedTiles(tiles: seq<seq<Tile>>, room: Rect, side: int): seq<seq<Tile>>
  {
    CarvedPrefix(tiles, room, side, |tiles|)
  }

  /** Column `x` of `CarvedPrefix` is `CarvedColumn` of column `x`. */
  lemma {:induction false} CarvedPrefixColumns(tiles: seq<seq<Tile>>, room: Rect, side: int, n: nat)
    requires n <= |tiles|
    ensures |CarvedPrefix(tiles, room, side, n)| == n
    ensures forall x :: 0 <= x < n ==> CarvedPrefix(tiles, room, side, n)[x] == CarvedColumn(tiles[x], room, side, x)
  {
    if n > 0 {
      CarvedPrefixColumns(tiles, room, side, n - 1);
    }
  }


  /** The acceptance test of `CreateRoom`: inside the far edges and overlapping no existing room. */
  predicate Fits(m: Map, room: Rect)
  {
    && room.Right() < m.width
    && room.Bottom() < m.height
    && forall i :: 0 <= i < |m.rooms| ==> !m.rooms[i].IntersectsWith(room)
  }

  /** `candidates[i]` is the first candidate that fits. */
  predicate FirstFit(m: Map, candidates: seq<Rect>, i: int)
  {
    && 0 <= i < |candidates|
    && Fits(m, candidates[i])
    && forall j :: 0 <= j < i ==> !Fits(m, candidates[j])
  }

  /**
    The attempt `CreateRoom` accepts, counting from `from`: the index of the
    first candidate that fits, or `|candidates|` when none does.
   */
  function FirstFitFrom(m: Map, candidates: seq<Rect>, from: nat): (i: nat)
    requires from <= |candidates|
    ensures from <= i <= |candidates|
    ensures i < |candidates| ==> Fits(m, candidates[i])
    ensures forall j :: from <= j < i ==> !Fits(m, candidates[j])
    decreases |candidates| - from
  {
    if from == |candidates| then from
    else if Fits(m, candidates[from]) then from
    else FirstFitFrom(m, candidates, from + 1)
  }

  /**
    What one `CreateRoom` call makes of the map: the first fitting candidate
    carved with its door on `side` and appended to the rooms, or the map
    unchanged when no candidate fits.
   */
  function WithNextRoom(m: Map, candidates: seq<Rect>, side: int): Map
  {
    var i := FirstFitFrom(m, candidates, 0);
    if i == |candidates| then m
    else m.(tiles := CarvedTiles(m.tiles, candidates[i], side), rooms := m.rooms + [candidates[i]])
  }

  /** The map after the first `n` `CreateRoom` calls of `GenerateRooms`, call `i` drawing `candidates[i]` and `sides[i]`. */
  function RoomsPlaced(m: Map, candidates: seq<seq<Rect>>, sides: seq<int>, n: nat): Map
    requires n <= |candidates| && n <= |sides|
  {
    if n == 0 then m
    else WithNextRoom(RoomsPlaced(m, candidates, sides, n - 1), candidates[n - 1], sides[n - 1])
  }

  /** The tiles of a carved room, with nothing outside it changed, are exactly `CarvedTiles`. */
  lemma CarvedIsCarvedTiles(m: Map, carved: Map, room: Rect, side: int)
    requires WellFormed(m) && WellFormed(carved) && carved.width == m.width && carved.height == m.height
    requires Carved(carved, room, side)
    requires forall x, y :: 0 <= x < m.width && 0 <= y < m.height && !room.Contains(x, y) ==>
      carved.tiles[x][y] == m.tiles[x][y]
    ensures carved.tiles == CarvedTiles(m.tiles, room, side)
  {
    CarvedPrefixColumns(m.tiles, room, side, |m.tiles|);
    Grid.SameCells(carved.tiles, CarvedTiles(m.tiles, room, side), m.width, m.height);
  }

  /** When candidate `i` is the first fit, `WithNextRoom` carves it and appends it. */
  lemma WithNextRoomFirstFit(m: Map, candidates: seq<Rect>, side: int, i: int, carved: Map)
    requires FirstFit(m, candidates, i)
    requires WellFormed(m) && WellFormed(carved) && carved == m.(tiles := carved.tiles)
    requires Carved(carved, candidates[i], side)
    requires forall x, y :: 0 <= x < m.width && 0 <= y < m.height && !candidates[i].Contains(x, y) ==>
      carved.tiles[x][y] == m.tiles[x][y]
    ensures WithNextRoom(m, candidates, side) == carved.(rooms := m.rooms + [candidates[i]])
  {
    assert FirstFitFrom(m, candidates, 0) == i;
    CarvedIsCarvedTiles(m, carved, candidates[i], side);
  }

  /** When no candidate fits, `WithNextRoom` leaves the map as it is. */
  lemma WithNextRoomNoFit(m: Map, candidates: seq<Rect>, side: int)
    requires forall j :: 0 <= j < |candidates| ==> !Fits(m, candidates[j])
    ensures WithNextRoom(m, candidates, side) == m
  {
  }

  /** One more `CreateRoom` call extends the fold by one step. */
  lemma RoomsPlacedStep(m: Map, candidates: seq<seq<Rect>>, sides: seq<int>, n: nat)
    requires 0 < n <= |candidates| && n <= |sides|
    ensures RoomsPlaced(m, candidates, sides, n) == WithNextRoom(RoomsPlaced(m, candidates, sides, n - 1), candidates[n - 1], sides[n - 1])
  {
  }

  /** A carved room stays carved when another room it does not overlap is carved. */
  lemma CarvedKept(m: Map, m': Map, room: Rect, side: int, other: Rect)
    requires WellFormed(m) && WellFormed(m') && m'.width == m.width && m'.height == m.height
    requires Carved(m, room, side)
    requires forall x, y :: 0 <= x < m.width && 0 <= y < m.height && !other.Contains(x, y) ==>
      m'.tiles[x][y] == m.tiles[x][y]
    requires !room.IntersectsWith(other)
    ensures Carved(m', room, side)
  {
    forall x, y | room.Contains(x, y)
      ensures m'.tiles[x][y] == m.tiles[x][y]
    {
      DisjointRoomsShareNoCell(room, other, x, y);
    }
  }

  /** A cell of a room does not lie in a room it does not overlap. */
  lemma DisjointRoomsShareNoCell(a: Rect, b: Rect, x: int, y: int)
    requires !a.IntersectsWith(b)
    requires a.Contains(x, y)
    ensures !b.Contains(x, y)
  {
  }

  /** Carving a fitting room and appending it keeps every room in bounds, intact and disjoint. */
  lemma AddRoomKeepsValid(m: Map, carved: Map, room: Rect)
    requires RoomsValid(m)
    requires Fits(m, room) && Candidate(m.width, m.height, room)
    requires WellFormed(carved) && carved == m.(tiles := carved.tiles)
    requires forall x, y :: 0 <= x < m.width && 0 <= y < m.height && !room.Contains(x, y) ==>
      carved.tiles[x][y] == m.tiles[x][y]
    requires RoomIntact(carved, room)
    ensures RoomsValid(carved.(rooms := m.rooms + [room]))
  {
    var r := carved.(rooms := m.rooms + [room]);
    forall i | 0 <= i < |m.rooms|
      ensures RoomIntact(r, m.rooms[i])
    {
      var other := m.rooms[i];
      forall x, y | 0 <= x < |r.tiles| && 0 <= y < |r.tiles[x]| && other.Contains(x, y)
        ensures r.tiles[x][y] == Floor <==> Interior(other, x, y)
      {
        DisjointRoomsShareNoCell(other, room, x, y);
      }
    }
    assert forall i :: 0 <= i < |r.rooms| ==> RoomIntact(r, r.rooms[i]) by {
      forall i | 0 <= i < |r.rooms| ensures RoomIntact(r, r.rooms[i]) {
        if i < |m.rooms| { assert r.rooms[i] == m.rooms[i]; } else { assert r.rooms[i] == room; }
      }
    }
  }

  /** The accepting branch of `CreateRoom`: the first fitting candidate is carved, gets its door and is added. */
  method AcceptRoom(m: Map, candidates: seq<Rect>, side: int, i: int) returns (r: Map)
    requires RoomsValid(m)
    requires FirstFit(m, candidates, i) && Candidate(m.width, m.height, candidates[i])
    requires 0 <= side < 4
    ensures RoomsValid(r)
    ensures r == m.(tiles := r.tiles, rooms := m.rooms + [candidates[i]])
    ensures Carved(r, candidates[i], side)
    ensures forall x, y :: 0 <= x < m.width && 0 <= y < m.height && !candidates[i].Contains(x, y) ==>
      r.tiles[x][y] == m.tiles[x][y]
    ensures r == WithNextRoom(m, candidates, side)
  {
    var carved := CarveRoom(m, candidates[i], side);
    AddRoomKeepsValid(m, carved, candidates[i]);
    r := carved.(rooms := m.rooms + [candidates[i]]);
    WithNextRoomFirstFit(m, candidates, side, i, carved);
  }

  /**
    `CreateRoom`: up to `MaxAttempts` candidates, tried in order; the first
    one that fits is carved, gets a door on the drawn side and is added to the
    rooms. When none fits, nothing changes.
   */
  method CreateRoom(m: Map, candidates: seq<Rect>, side: int) returns (r: Map)
    requires RoomsValid(m)
    requires |candidates| == MaxAttempts
    requires forall i :: 0 <= i < |candidates| ==> Candidate(m.width, m.height, candidates[i])
    requires 0 <= side < 4
    ensures RoomsValid(r)
    ensures r.width == m.width && r.height == m.height && r.enemies == m.enemies
    ensures r == m <==> forall i :: 0 <= i < |candidates| ==> !Fits(m, candidates[i])
    ensures r != m ==> exists i ::
      && FirstFit(m, candidates, i)
      && r.rooms == m.rooms + [candidates[i]]
      && Carved(r, candidates[i], side)
      && (forall x, y :: 0 <= x < m.width && 0 <= y < m.height && !candidates[i].Contains(x, y) ==>
            r.tiles[x][y] == m.tiles[x][y])
    ensures r == WithNextRoom(m, candidates, side)
  {
    r := m;
    var attempts := 0;
    while attempts < MaxAttempts
      invariant 0 <= attempts <= MaxAttempts
      invariant forall j :: 0 <= j < attempts ==> !Fits(m, candidates[j])
      decreases MaxAttempts - attempts
    {
      var room := candidates[attempts];
      if room.Right() >= m.width || room.Bottom() >= m.height {
        attempts := attempts + 1;
        continue;
      }
      var k := 0;
      while k < |m.rooms| && !m.rooms[k].IntersectsWith(room)
        invariant 0 <= k <= |m.rooms|
        invariant forall j :: 0 <= j < k ==> !m.rooms[j].IntersectsWith(room)
      {
        k := k + 1;
      }
      var intersects := k < |m.rooms|;
      if intersects {
        attempts := attempts + 1;
        continue;
      }
      assert FirstFit(m, candidates, attempts);
      r := AcceptRoom(m, candidates, side, attempts);
      assert |r.rooms| != |m.rooms|;
      return;
    }
    WithNextRoomNoFit(m, candidates, side);
  }

  /** The cell lies in none of the rooms from index `from` on. */
  predicate OutsideRoomsFrom(rooms: seq<Rect>, from: int, x: int, y: int)
  {
    forall k :: 0 <= k < |rooms| && from <= k ==> !rooms[k].Contains(x, y)
  }

  /** The room is one of the candidates of call `a`, carved with that call's door side. */
  ghost predicate PlacedBy(r: Map, room: Rect, candidates: seq<seq<Rect>>, sides: seq<int>, a: int)
  {
    0 <= a < |candidates| && a < |sides| && room in candidates[a] && Carved(r, room, sides[a])
  }

  /** The room was placed by one of the first `n` `CreateRoom` calls. */
  ghost predicate PlacedByCall(r: Map, room: Rect, candidates: seq<seq<Rect>>, sides: seq<int>, n: int)
  {
    exists a :: 0 <= a < n && PlacedBy(r, room, candidates, sides, a)
  }

  /** Every room from index `from` on was placed by one of the first `n` `CreateRoom` calls. */
  ghost predicate PlacedFrom(r: Map, from: int, candidates: seq<seq<Rect>>, sides: seq<int>, n: int)
  {
    forall k :: 0 <= k < |r.rooms| && from <= k ==> PlacedByCall(r, r.rooms[k], candidates, sides, n)
  }

  /** Which rooms count as placed depends only on the rooms and the tiles. */
  lemma PlacedFromReadsTiles(a: Map, b: Map, from: int, candidates: seq<seq<Rect>>, sides: seq<int>, n: int)
    requires a.tiles == b.tiles && a.rooms == b.rooms
    requires PlacedFrom(a, from, candidates, sides, n)
    ensures PlacedFrom(b, from, candidates, sides, n)
  {
    forall k | 0 <= k < |b.rooms| && from <= k
      ensures PlacedByCall(b, b.rooms[k], candidates, sides, n)
    {
      assert PlacedByCall(a, a.rooms[k], candidates, sides, n);
      var c :| 0 <= c < n && PlacedBy(a, a.rooms[k], candidates, sides, c);
      assert PlacedBy(b, b.rooms[k], candidates, sides, c);
    }
  }

  /** Allowing one more call keeps every placed room accounted for. */
  lemma PlacedFromMoreCalls(r: Map, from: int, candidates: seq<seq<Rect>>, sides: seq<int>, n: int)
    requires PlacedFrom(r, from, candidates, sides, n)
    ensures PlacedFrom(r, from, candidates, sides, n + 1)
  {
    forall k | 0 <= k < |r.rooms| && from <= k
      ensures PlacedByCall(r, r.rooms[k], candidates, sides, n + 1)
    {
      var a :| 0 <= a < n && PlacedBy(r, r.rooms[k], candidates, sides, a);
    }
  }

  /**
    A call that adds its first fitting candidate `k`, carved with its side,
    keeps the earlier rooms carved and accounts for the new one.
   */
  lemma PlacedFromAddedRoom(before: Map, r: Map, from: int, candidates: seq<seq<Rect>>, sides: seq<int>, i: int, k: int)
    requires RoomsValid(before) && WellFormed(r) && r.width == before.width && r.height == before.height
    requires 0 <= i < |candidates| && i < |sides|
    requires PlacedFrom(before, from, candidates, sides, i)
    requires FirstFit(before, candidates[i], k) && r.rooms == before.rooms + [candidates[i][k]]
    requires Carved(r, candidates[i][k], sides[i])
    requires forall x, y :: 0 <= x < before.width && 0 <= y < before.height && !candidates[i][k].Contains(x, y) ==>
      r.tiles[x][y] == before.tiles[x][y]
    ensures PlacedFrom(r, from, candidates, sides, i + 1)
  {
    forall j | 0 <= j < |r.rooms| && from <= j
      ensures PlacedByCall(r, r.rooms[j], candidates, sides, i + 1)
    {
      if j == |before.rooms| {
        assert r.rooms[j] == candidates[i][k];
        assert PlacedBy(r, r.rooms[j], candidates, sides, i);
      } else {
        assert r.rooms[j] == before.rooms[j];
        assert PlacedByCall(before, before.rooms[j], candidates, sides, i);
        var a :| 0 <= a < i && PlacedBy(before, before.rooms[j], candidates, sides, a);
        CarvedKept(before, r, before.rooms[j], sides[a], candidates[i][k]);
        assert PlacedBy(r, r.rooms[j], candidates, sides, a);
      }
    }
  }

  /** Adding a room that changes no tile outside itself keeps every tile outside the added rooms as it was. */
  lemma OutsideRoomsKept(m: Map, before: Map, r: Map, room: Rect)
    requires WellFormed(m) && WellFormed(before) && WellFormed(r)
    requires before.width == m.width && before.height == m.height && r.width == m.width && r.height == m.height
    requires |m.rooms| <= |before.rooms| && r.rooms == before.rooms + [room]
    requires forall x, y :: 0 <= x < m.width && 0 <= y < m.height && OutsideRoomsFrom(before.rooms, |m.rooms|, x, y) ==>
      before.tiles[x][y] == m.tiles[x][y]
    requires forall x, y :: 0 <= x < m.width && 0 <= y < m.height && !room.Contains(x, y) ==>
      r.tiles[x][y] == before.tiles[x][y]
    ensures forall x, y :: 0 <= x < m.width && 0 <= y < m.height && OutsideRoomsFrom(r.rooms, |m.rooms|, x, y) ==>
      r.tiles[x][y] == m.tiles[x][y]
  {
    forall x, y | 0 <= x < m.width && 0 <= y < m.height && OutsideRoomsFrom(r.rooms, |m.rooms|, x, y)
      ensures r.tiles[x][y] == m.tiles[x][y]
    {
      assert r.rooms[|r.rooms| - 1] == room;
      assert OutsideRoomsFrom(before.rooms, |m.rooms|, x, y) by {
        forall j | |m.rooms| <= j < |before.rooms| ensures !before.rooms[j].Contains(x, y) {
          assert r.rooms[j] == before.rooms[j];
        }
      }
    }
  }

  /**
    What the room loop keeps after `i` `CreateRoom` calls on `m`: the map is
    the fold of those calls, its rooms are valid, the rooms of `m` come
    first, each later room was placed by one of the calls, and no tile
    outside the later rooms changed.
   */
  ghost predicate RoomsSoFar(m: Map, r: Map, candidates: seq<seq<Rect>>, sides: seq<int>, i: int)
  {
    && 0 <= i <= |candidates| && i <= |sides|
    && WellFormed(m) && RoomsValid(r)
    && r.width == m.width && r.height == m.height && r.enemies == m.enemies
    && |m.rooms| <= |r.rooms| <= |m.rooms| + i
    && r.rooms[..|m.rooms|] == m.rooms
    && (forall x, y :: 0 <= x < m.width && 0 <= y < m.height && OutsideRoomsFrom(r.rooms, |m.rooms|, x, y) ==>
          r.tiles[x][y] == m.tiles[x][y])
    && PlacedFrom(r, |m.rooms|, candidates, sides, i)
    && r == RoomsPlaced(m, candidates, sides, i)
  }

  /** Call `i` of the room loop: one `CreateRoom` with that call's candidates and door side. */
  method CreateNextRoom(m: Map, r: Map, candidates: seq<seq<Rect>>, sides: seq<int>, i: int) returns (r': Map)
    requires RoomsSoFar(m, r, candidates, sides, i) && i < |candidates| && i < |sides|
    requires |candidates[i]| == MaxAttempts
    requires forall j :: 0 <= j < |candidates[i]| ==> Candidate(m.width, m.height, candidates[i][j])
    requires 0 <= sides[i] < 4
    ensures RoomsSoFar(m, r', candidates, sides, i + 1)
  {
    r' := CreateRoom(r, candidates[i], sides[i]);
    RoomsPlacedStep(m, candidates, sides, i + 1);
    assert r' == RoomsPlaced(m, candidates, sides, i + 1);
    if r' == r {
      PlacedFromMoreCalls(r', |m.rooms|, candidates, sides, i);
    } else {
      ghost var k :| FirstFit(r, candidates[i], k) && r'.rooms == r.rooms + [candidates[i][k]]
        && Carved(r', candidates[i][k], sides[i])
        && (forall x, y :: 0 <= x < m.width && 0 <= y < m.height && !candidates[i][k].Contains(x, y) ==>
              r'.tiles[x][y] == r.tiles[x][y]);
      PlacedFromAddedRoom(r, r', |m.rooms|, candidates, sides, i, k);
      OutsideRoomsKept(m, r, r', candidates[i][k]);
    }
    assert r'.rooms[..|r.rooms|] == r.rooms;
    assert r'.rooms[..|m.rooms|] == r.rooms[..|m.rooms|];
  }

  /**
    `GenerateRooms`: the drawn number of `CreateRoom` calls, call `i` with
    the candidates and door side drawn for it. Each call adds at most one room.
   */
  method GenerateRooms(m: Map, numRooms: int, candidates: seq<seq<Rect>>, sides: seq<int>) returns (r: Map)
    requires RoomsValid(m)
    requires NextBetween(numRooms, MinRooms, MaxRooms)
    requires |candidates| == numRooms && |sides| == numRooms
    requires forall i :: 0 <= i < numRooms ==> |candidates[i]| == MaxAttempts
    requires forall i, j :: 0 <= i < numRooms && 0 <= j < |candidates[i]| ==> Candidate(m.width, m.height, candidates[i][j])
    requires forall i :: 0 <= i < numRooms ==> 0 <= sides[i] < 4
    ensures RoomsValid(r)
    ensures r.width == m.width && r.height == m.height && r.enemies == m.enemies
    ensures |m.rooms| <= |r.rooms| <= |m.rooms| + numRooms
    ensures r.rooms[..|m.rooms|] == m.rooms
    ensures forall x, y :: 0 <= x < m.width && 0 <= y < m.height && OutsideRoomsFrom(r.rooms, |m.rooms|, x, y) ==>
      r.tiles[x][y] == m.tiles[x][y]
    ensures PlacedFrom(r, |m.rooms|, candidates, sides, numRooms)
    ensures r == RoomsPlaced(m, candidates, sides, numRooms)
  {
    r := m;
    var i := 0;
    assert m.rooms[..|m.rooms|] == m.rooms;
    while i < numRooms
      invariant 0 <= i <= numRooms
      invariant RoomsSoFar(m, r, candidates, sides, i)
    {
      r := CreateNextRoom(m, r, candidates, sides, i);
      i := i + 1;
    }
  }

  /** The position is a cell of the map. */
  predicate OnMap(m: Map, p: Position)
  {
    0 <= p.x < m.width && 0 <= p.y < m.height
  }

  /** Every position `Random.Next(width - 1)`, `Random.Next(height - 1)` can produce is a cell of the map. */
  lemma DrawnPositionOnMap(m: Map, p: Position)
    requires m.width >= 1 && m.height >= 1
    requires NextBelow(p.x, m.width - 1) && NextBelow(p.y, m.height - 1)
    ensures OnMap(m, p)
  {
  }

  /** The position is a cell of the tiles holding floor. */
  predicate IsFloor(m: Map, p: Position)
  {
    0 <= p.x < |m.tiles| && 0 <= p.y < |m.tiles[p.x]| && m.tiles[p.x][p.y] == Floor
  }

  /** The first `n` draws that land on floor, in draw order, repeats kept: the enemies `GenerateEnemies` adds. */
  function FloorDraws(m: Map, draws: seq<Position>, n: nat): seq<Position>
    requires n <= |draws|
  {
    if n == 0 then []
    else FloorDraws(m, draws, n - 1) + (if IsFloor(m, draws[n - 1]) then [draws[n - 1]] else [])
  }

  /** `FloorDraws` keeps exactly the draws on floor: what it keeps is on floor and drawn, and no floor draw is lost. */
  lemma {:induction false} FloorDrawsKeepsFloor(m: Map, draws: seq<Position>, n: nat)
    requires n <= |draws|
    ensures |FloorDraws(m, draws, n)| <= n
    ensures forall k :: 0 <= k < |FloorDraws(m, draws, n)| ==>
      IsFloor(m, FloorDraws(m, draws, n)[k]) && FloorDraws(m, draws, n)[k] in draws[..n]
    ensures forall i :: 0 <= i < n && IsFloor(m, draws[i]) ==> draws[i] in FloorDraws(m, draws, n)
  {
    if n > 0 {
      FloorDrawsKeepsFloor(m, draws, n - 1);
      assert draws[..n] == draws[..n - 1] + [draws[n - 1]];
    }
  }

  /** `FloorDraws` looks only at the tiles of the map. */
  lemma {:induction false} FloorDrawsReadsTiles(m: Map, m': Map, draws: seq<Position>, n: nat)
    requires m.tiles == m'.tiles && n <= |draws|
    ensures FloorDraws(m, draws, n) == FloorDraws(m', draws, n)
  {
    if n > 0 {
      FloorDrawsReadsTiles(m, m', draws, n - 1);
    }
  }

  /**
    `GenerateEnemies`: the drawn number of positions, each kept as an enemy
    exactly when its tile is floor.
   */
  method GenerateEnemies(m: Map, enemyNumber: int, draws: seq<Position>) returns (r: Map)
    requires WellFormed(m)
    requires NextBetween(enemyNumber, MinEnemies, MaxEnemies) && |draws| == enemyNumber
    requires forall i :: 0 <= i < |draws| ==> NextBelow(draws[i].x, m.width - 1) && NextBelow(draws[i].y, m.height - 1)
    ensures r == m.(enemies := m.enemies + FloorDraws(m, draws, |draws|))
  {
    r := m;
    var i := 0;
    while i < enemyNumber
      invariant 0 <= i <= enemyNumber
      invariant r == m.(enemies := m.enemies + FloorDraws(m, draws, i))
    {
      var enemy := draws[i];
      DrawnPositionOnMap(m, enemy);
      if m.tiles[enemy.x][enemy.y] == Floor {
        r := r.(enemies := r.enemies + [enemy]);
      }
      i := i + 1;
    }
  }

  /**
    `GenerateMap` on a fresh map: rooms, then enemies. Every room is in
    bounds, intact and disjoint from the others, and every enemy stands on a
    floor tile, hence never on a room's wall or door.
   */
  method GenerateMap(
    width: int, height: int,
    numRooms: int, candidates: seq<seq<Rect>>, sides: seq<int>,
    enemyNumber: int, draws: seq<Position>) returns (r: Map)
    requires width >= 1 && height >= 1
    requires NextBetween(numRooms, MinRooms, MaxRooms)
    requires |candidates| == numRooms && |sides| == numRooms
    requires forall i :: 0 <= i < numRooms ==> |candidates[i]| == MaxAttempts
    requires forall i, j :: 0 <= i < numRooms && 0 <= j < |candidates[i]| ==> Candidate(width, height, candidates[i][j])
    requires forall i :: 0 <= i < numRooms ==> 0 <= sides[i] < 4
    requires NextBetween(enemyNumber, MinEnemies, MaxEnemies) && |draws| == enemyNumber
    requires forall i :: 0 <= i < |draws| ==> NextBelow(draws[i].x, width - 1) && NextBelow(draws[i].y, height - 1)
    ensures r.width == width && r.height == height
    ensures RoomsValid(r)
    ensures |r.rooms| <= numRooms
    ensures r.enemies == FloorDraws(r, draws, |draws|)
    ensures forall x, y :: 0 <= x < width && 0 <= y < height && OutsideRoomsFrom(r.rooms, 0, x, y) ==> r.tiles[x][y] == Floor
    ensures |r.enemies| <= enemyNumber
    ensures forall k :: 0 <= k < |r.enemies| ==>
      && 0 <= r.enemies[k].x < width && 0 <= r.enemies[k].y < height
      && r.tiles[r.enemies[k].x][r.enemies[k].y] == Floor
    ensures forall k, i :: 0 <= k < |r.enemies| && 0 <= i < |r.rooms| && r.rooms[i].Contains(r.enemies[k].x, r.enemies[k].y) ==>
      Interior(r.rooms[i], r.enemies[k].x, r.enemies[k].y)
    ensures PlacedFrom(r, 0, candidates, sides, numRooms)
    ensures var placed := RoomsPlaced(New(width, height).value, candidates, sides, numRooms);
      r == placed.(enemies := FloorDraws(placed, draws, |draws|))
  {
    var m := New(width, height).value;
    var withRooms := GenerateRooms(m, numRooms, candidates, sides);
    FloorDrawsKeepsFloor(withRooms, draws, |draws|);
    assert draws[..|draws|] == draws;
    r := GenerateEnemies(withRooms, enemyNumber, draws);
    FloorDrawsReadsTiles(withRooms, r, draws, |draws|);
    PlacedFromReadsTiles(withRooms, r, 0, candidates, sides, numRooms);
    assert withRooms.enemies + FloorDraws(withRooms, draws, |draws|) == FloorDraws(withRooms, draws, |draws|);
  }
}

=== FILE: program.dfy ===
/**
  The game loop's input handling: arrow keys move the player one cell within
  the 80 by 24 map, Escape and Q end the loop.
 */
module Program {
  import opened Map

  const MapWidth := 80
  const MapHeight := 24

  /** The keys the loop distinguishes; every other key is `OtherKey`. */
  datatype Key = LeftArrow | RightArrow | UpArrow | DownArrow | Escape | Q | OtherKey(code: int)

  /** The player's position lies on the 80 by 24 map. */
  predicate OnMap(p: Position)
  {
    0 <= p.x < MapWidth && 0 <= p.y < MapHeight
  }

  /** `ProcessInput`: one step in the arrow's direction when the target column or row is still on the map. */
  function ProcessInput(p: Position, key: Key): (r: Position)
    ensures key == LeftArrow ==> (r != p <==> p.x > 0) && (r != p ==> r == Position(p.x - 1, p.y))
    ensures key == RightArrow ==> (r != p <==> p.x + 1 < MapWidth) && (r != p ==> r == Position(p.x + 1, p.y))
    ensures key == UpArrow ==> (r != p <==> p.y > 0) && (r != p ==> r == Position(p.x, p.y - 1))
    ensures key == DownArrow ==> (r != p <==> p.y + 1 < MapHeight) && (r != p ==> r == Position(p.x, p.y + 1))
    ensures !(key.LeftArrow? || key.RightArrow? || key.UpArrow? || key.DownArrow?) ==> r == p
  {
    match key
    case LeftArrow => if p.x > 0 then p.(x := p.x - 1) else p
    case RightArrow => if p.x + 1 < MapWidth then p.(x := p.x + 1) else p
    case UpArrow => if p.y > 0 then p.(y := p.y - 1) else p
    case DownArrow => if p.y + 1 < MapHeight then p.(y := p.y + 1) else p
    case _ => p
  }

  /** A move changes at most one coordinate, by at most one. */
  lemma MoveIsOneStep(p: Position, key: Key)
    ensures var r := ProcessInput(p, key);
      (r.x == p.x && -1 <= r.y - p.y <= 1) || (r.y == p.y && -1 <= r.x - p.x <= 1)
  {
  }

  /** A move from a position on the map stays on the map. */
  lemma MoveStaysOnMap(p: Position, key: Key)
    requires OnMap(p)
    ensures OnMap(ProcessInput(p, key))
  {
  }

  /** Left undoes a successful Right, and Up undoes a successful Down, and vice versa. */
  lemma OppositeMovesCancel(p: Position)
    ensures p.x >= 0 && p.x + 1 < MapWidth ==> ProcessInput(ProcessInput(p, RightArrow), LeftArrow) == p
    ensures p.x > 0 && p.x < MapWidth ==> ProcessInput(ProcessInput(p, LeftArrow), RightArrow) == p
    ensures p.y + 1 < MapHeight && p.y >= 0 ==> ProcessInput(ProcessInput(p, DownArrow), UpArrow) == p
    ensures p.y > 0 && p.y < MapHeight ==> ProcessInput(ProcessInput(p, UpArrow), DownArrow) == p
  {
  }

  /** Escape and Q end the game loop. */
  predicate IsQuit(key: Key)
  {
    key == Escape || key == Q
  }

  /** The state of the game loop: whether it still runs, and where the player is. */
  datatype Game = Game(isRunning: bool, player: Position)

  /**
    `RunGame` on the keys read so far: each key either stops the loop or is
    handed to `ProcessInput`; keys after the loop stopped are never read.
   */
  function RunGame(g: Game, keys: seq<Key>): (r: Game)
    decreases |keys|
    ensures !g.isRunning ==> r == g
    ensures OnMap(g.player) ==> OnMap(r.player)
    ensures g.isRunning ==> (r.isRunning <==> forall i :: 0 <= i < |keys| ==> !IsQuit(keys[i]))
  {
    if !g.isRunning || |keys| == 0 then g
    else if IsQuit(keys[0]) then g.(isRunning := false)
    else
      RunGame(g.(player := ProcessInput(g.player, keys[0])), keys[1..])
  }

  /** Nothing after the first Escape or Q reaches `ProcessInput`: such keys do not affect the result. */
  lemma {:induction false} QuitIgnoresLaterKeys(g: Game, keys: seq<Key>, later: seq<Key>)
    requires exists i :: 0 <= i < |keys| && IsQuit(keys[i])
    ensures RunGame(g, keys + later) == RunGame(g, keys)
    decreases |keys|
  {
    if g.isRunning && !IsQuit(keys[0]) {
      assert (keys + later)[1..] == keys[1..] + later;
      var i :| 0 <= i < |keys| && IsQuit(keys[i]);
      assert i > 0 && IsQuit(keys[1..][i - 1]);
      QuitIgnoresLaterKeys(g.(player := ProcessInput(g.player, keys[0])), keys[1..], later);
    }
  }

  /** The loop ends on a quit key without moving the player for it. */
  lemma QuitKeepsPosition(g: Game, key: Key)
    requires g.isRunning && IsQuit(key)
    ensures RunGame(g, [key]) == Game(false, g.player)
  {
  }
}

=== FILE: terminal.dfy ===
/**
  The console the renderer's events act on: the cursor flag, the current
  colours, and the characters printed since the last clear. A cell that was
  not printed since then shows a space in the background colour of that clear.
 */
module Terminal {
  import opened ConsoleChar
  import opened Trace

  datatype Console = Console(cursorVisible: bool, background: Color, foreground: Color, blank: Color, cells: map<(int, int), Cell>)

  /**
    One event's effect. `ClearConsole` sets the cursor flag and both colours
    and then clears, so everything shows the new background. `PrintConsoleChar`
    sets the cell's colours and writes its character at `(x, y)`.
   */
  function Apply(c: Console, e: Event): Console
  {
    match e
    case ClearScreen(cursorVisible, background, foreground) => Console(cursorVisible, background, foreground, background, map[])
    case Print(x, y, cell) =>
      c.(background := cell.backgroundColor, foreground := cell.foregroundColor, cells := c.cells[(x, y) := cell])
  }

  /** The events of `t` in order. */
  function Replay(c: Console, t: seq<Event>): Console
    decreases |t|
  {
    if |t| == 0 then c else Replay(Apply(c, t[0]), t[1..])
  }

  /** Replaying `a + b` is replaying `a`, then `b`. */
  lemma {:induction false} ReplayConcat(c: Console, a: seq<Event>, b: seq<Event>)
    ensures Replay(c, a + b) == Replay(Replay(c, a), b)
    decreases |a|
  {
    if |a| > 0 {
      assert (a + b)[1..] == a[1..] + b;
      ReplayConcat(Apply(c, a[0]), a[1..], b);
    } else {
      assert a + b == b;
    }
  }

  /**
    A clear leaves no printed character behind: afterwards the cursor flag and
    both colours are the ones the event carries, and every cell shows the new
    background.
   */
  lemma ClearForgetsPrints(c: Console, cursorVisible: bool, background: Color, foreground: Color)
    ensures var r := Apply(c, ClearScreen(cursorVisible, background, foreground));
      && r.cells == map[]
      && r.cursorVisible == cursorVisible && r.background == background && r.foreground == foreground
      && r.blank == background
  {
  }

  /**
    Replaying prints in row-major order leaves each printed character at its
    position and every other position as it was; the cursor flag and the
    colour of a clear are untouched.
   */
  lemma {:induction false} ReplayPrints(c: Console, t: seq<Event>)
    requires AllPrints(t) && RowMajor(t)
    ensures Replay(c, t).cursorVisible == c.cursorVisible && Replay(c, t).blank == c.blank
    ensures forall i :: 0 <= i < |t| ==>
      (t[i].x, t[i].y) in Replay(c, t).cells && Replay(c, t).cells[(t[i].x, t[i].y)] == t[i].cell
    ensures forall p :: (forall i :: 0 <= i < |t| ==> (t[i].x, t[i].y) != p) ==>
      (p in Replay(c, t).cells <==> p in c.cells) && (p in c.cells ==> Replay(c, t).cells[p] == c.cells[p])
    decreases |t|
  {
    if |t| > 0 {
      var c1 := Apply(c, t[0]);
      var rest := t[1..];
      assert AllPrints(rest) && RowMajor(rest);
      ReplayPrints(c1, rest);
      forall j | 0 <= j < |rest|
        ensures (rest[j].x, rest[j].y) != (t[0].x, t[0].y)
      {
        assert rest[j] == t[j + 1];
        assert Before(t[0].x, t[0].y, t[j + 1].x, t[j + 1].y);
      }
      forall i | 0 <= i < |t|
        ensures (t[i].x, t[i].y) in Replay(c, t).cells && Replay(c, t).cells[(t[i].x, t[i].y)] == t[i].cell
      {
        if i > 0 {
          assert t[i] == rest[i - 1];
        }
      }
      forall p | (forall i :: 0 <= i < |t| ==> (t[i].x, t[i].y) != p)
        ensures (p in Replay(c, t).cells <==> p in c.cells) && (p in c.cells ==> Replay(c, t).cells[p] == c.cells[p])
      {
        assert (t[0].x, t[0].y) != p;
        assert forall j :: 0 <= j < |rest| ==> (rest[j].x, rest[j].y) != p by {
          forall j | 0 <= j < |rest| ensures (rest[j].x, rest[j].y) != p {
            assert rest[j] == t[j + 1];
          }
        }
      }
    }
  }
}

=== FILE: trace.dfy ===
/**
  The terminal as the renderer sees it: an append-only sequence of events,
  and the row-major scan that both the frame diff and the full repaint use
  to decide which positions to print.
 */
module Trace {
  import opened Wrappers
  import opened ConsoleChar

  /**
    What the renderer sends to the terminal. `ClearScreen` is `ClearConsole`
    (cursor visibility, default colours, then `Console.Clear`); `Print` is
    `PrintConsoleChar` (cursor to `(x, y)`, both colours, the character).
   */
  datatype Event =
    | ClearScreen(cursorVisible: bool, background: Color, foreground: Color)
    | Print(x: int, y: int, cell: Cell)

  /** Row-major order on positions: earlier rows first, then columns left to right. */
  predicate Before(x: int, y: int, x': int, y': int)
  {
    y < y' || (y == y' && x < x')
  }

  /** Every event of `t` prints a character. */
  predicate AllPrints(t: seq<Event>)
  {
    forall i :: 0 <= i < |t| ==> t[i].Print?
  }

  /** The prints of `t` visit strictly increasing positions in row-major order. */
  predicate RowMajor(t: seq<Event>)
  {
    forall i, j :: 0 <= i < j < |t| && t[i].Print? && t[j].Print? ==> Before(t[i].x, t[i].y, t[j].x, t[j].y)
  }

  /** The positions printed by `t`. */
  ghost function Positions(t: seq<Event>): set<(int, int)>
    requires AllPrints(t)
  {
    set i | 0 <= i < |t| :: (t[i].x, t[i].y)
  }

  /**
    The positions of the `width` by `height` region at which `f` asks for a
    print: the reference against which the scan is counted.
   */
  ghost function Marked(f: (int, int) -> Option<Cell>, width: int, height: int): set<(int, int)>
  {
    set x, y | 0 <= x < width && 0 <= y < height && f(x, y).Some? :: (x, y)
  }

  /**
    One row of the nested `for` loops: columns `x` up to `width` of row `y`,
    printing `c` wherever `f` yields `Some(c)`.
   */
  function ScanRow(f: (int, int) -> Option<Cell>, y: int, x: int, width: int): (t: seq<Event>)
    decreases width - x
    ensures AllPrints(t)
    ensures forall i :: 0 <= i < |t| ==> t[i].Print? && t[i].y == y && x <= t[i].x < width && f(t[i].x, y) == Some(t[i].cell)
    ensures forall i, j :: 0 <= i < j < |t| ==> t[i].Print? && t[j].Print? && t[i].x < t[j].x
    ensures forall px :: x <= px < width && f(px, y).Some? ==> Print(px, y, f(px, y).value) in t
  {
    if x >= width then []
    else
      var rest := ScanRow(f, y, x + 1, width);
      match f(x, y)
      case None => rest
      case Some(c) => [Print(x, y, c)] + rest
  }

  /** Rows `y` up to `height`, each scanned over columns `0` up to `width`. */
  function ScanRows(f: (int, int) -> Option<Cell>, y: int, height: int, width: int): (t: seq<Event>)
    decreases height - y
    ensures AllPrints(t)
    ensures forall i :: 0 <= i < |t| ==> t[i].Print? && y <= t[i].y < height && 0 <= t[i].x < width && f(t[i].x, t[i].y) == Some(t[i].cell)
    ensures RowMajor(t)
    ensures forall px, py :: 0 <= px < width && y <= py < height && f(px, py).Some? ==> Print(px, py, f(px, py).value) in t
  {
    if y >= height then []
    else
      var row := ScanRow(f, y, 0, width);
      var rest := ScanRows(f, y + 1, height, width);
      assert forall i, j :: 0 <= i < |row| && 0 <= j < |rest| ==> Before(row[i].x, row[i].y, rest[j].x, rest[j].y);
      row + rest
  }

  /** The whole `width` by `height` region in row-major order. */
  function Scan(f: (int, int) -> Option<Cell>, width: int, height: int): (t: seq<Event>)
    ensures AllPrints(t) && RowMajor(t)
    ensures forall i :: 0 <= i < |t| ==> 0 <= t[i].x < width && 0 <= t[i].y < height && f(t[i].x, t[i].y) == Some(t[i].cell)
    ensures forall px, py :: 0 <= px < width && 0 <= py < height && f(px, py).Some? ==> Print(px, py, f(px, py).value) in t
  {
    ScanRows(f, 0, height, width)
  }

  /** The positions of a non-empty trace are its head's position plus those of its tail. */
  lemma PositionsSplit(t: seq<Event>)
    requires |t| > 0 && AllPrints(t)
    ensures AllPrints(t[1..])
    ensures Positions(t) == {(t[0].x, t[0].y)} + Positions(t[1..])
  {
    var rest := t[1..];
    forall q | q in Positions(t) ensures q in {(t[0].x, t[0].y)} + Positions(rest) {
      var i :| 0 <= i < |t| && q == (t[i].x, t[i].y);
      if i > 0 { assert q == (rest[i - 1].x, rest[i - 1].y); }
    }
    forall q | q in Positions(rest) ensures q in Positions(t) {
      var i :| 0 <= i < |rest| && q == (rest[i].x, rest[i].y);
      assert q == (t[i + 1].x, t[i + 1].y);
    }
  }

  /** A row-major trace never prints the same position twice, so it is as long as its set of positions. */
  lemma {:induction false} RowMajorDistinct(t: seq<Event>)
    requires AllPrints(t) && RowMajor(t)
    ensures |Positions(t)| == |t|
  {
    if |t| > 0 {
      var rest := t[1..];
      PositionsSplit(t);
      assert RowMajor(rest);
      RowMajorDistinct(rest);
      var p := (t[0].x, t[0].y);
      forall i | 0 <= i < |rest| ensures (rest[i].x, rest[i].y) != p {
        assert Before(t[0].x, t[0].y, t[i + 1].x, t[i + 1].y);
      }
      assert p !in Positions(rest);
    }
  }

  /**
    The scan prints exactly once at each marked position: its length is the
    number of positions in the region where `f` asks for a print.
   */
  lemma ScanCount(f: (int, int) -> Option<Cell>, width: int, height: int)
    ensures |Scan(f, width, height)| == |Marked(f, width, height)|
  {
    var t := Scan(f, width, height);
    RowMajorDistinct(t);
    assert Positions(t) == Marked(f, width, height) by {
      forall q | q in Marked(f, width, height) ensures q in Positions(t) {
        var e := Print(q.0, q.1, f(q.0, q.1).value);
        assert e in t;
        var i :| 0 <= i < |t| && t[i] == e;
        assert q == (t[i].x, t[i].y);
      }
    }
  }

  /** Nothing is printed exactly when `f` asks for no print anywhere in the region. */
  lemma ScanEmpty(f: (int, int) -> Option<Cell>, width: int, height: int)
    ensures Scan(f, width, height) == [] <==> forall x, y :: 0 <= x < width && 0 <= y < height ==> f(x, y).None?
  {
    var t := Scan(f, width, height);
    if t != [] {
      assert f(t[0].x, t[0].y).Some?;
    }
  }
}

=== FILE: wrappers.dfy ===
/** The optional value used for C# references that may be null. */
module Wrappers {

  /** `None` stands for a null reference, `Some(v)` for a reference to `v`. */
  datatype Option<+T> = None | Some(value: T)
}
